=== FILE: README.md ===
# Bounded feed cache of instagram-photo-frame, in Dafny

instagram-photo-frame pulls a user's Instagram timeline, keeps the most recent posts
in a `RingBuffer` (a `collections.deque` with `maxlen` whose `push` returns the post
it pushes out), caches each post's image as `images/<id>.jpeg`, and serves the buffer
through `/feed` and `/image/<id>`. It comes in two variants: `server.py` refreshes
forever in a worker thread, and `fetch-instagram-images.py` loads the buffer from
`ringbuffer.pickle`, handles one feed page and dumps the buffer again.

This project models that cache as pure functions over immutable values:

- `Outcomes`: `Option`, `Result`, the Python exceptions that matter (`PyError`), and
  `Outcome`, the state a step with side effects reaches. A step either completes, or
  an exception escapes and the effects made before it (an image already written, say)
  remain.
- `JsonValues`: raw JSON values. Also the Python operations the decoder applies to
  them, with Python's behaviour on values of the wrong kind: `v[key]`, `v[0]`,
  `v.get(key, default)`, `needle in v` and `str(v)`.
- `Posts`: the six-field post, its dict form, and `post_filename`.
- `RingBuffers`: `RingBuffer.push` over `seq<T>` plus `maxlen`, and runs of pushes.
- `Dicts`: `dict_without`.
- `FeedDecoding`: `is_ad`, `decode_feed_item`, and the decode-and-filter part of
  `fetch_news_feed`.
- `ImageStore`: the `images` directory as a set of file names. It models
  `save_image` and `delete_image`.
- `Cache`: `handle_new_post` and the loop that applies it to a feed in order.
- `Persistence`: `read_ringbuffer` / `read_or_create_ringbuffer` and the pickle dump.
  The file is `Absent`, `Present(buffer)` or `Unreadable(error)`.
- `Server`: the worker loop, `get_image` and `get_feed`.
- `FetchScript`: `main` of the fetch script, from loading the buffer to dumping it.

The HTTP collaborators are parameters. The timeline response is a `FeedResponse`:
unreachable, or a status with a body that is JSON or not. The image download is a
function from the post's `image url` to `Fetched`, `RequestFailed` (before the file is
opened) or `StreamFailed` (after).

Membership in `handle_new_post` is a parameter too. `WholeRecord` is the code as
written (`post in ringbuffer` compares whole dicts). `SameKey` is the corrected test
by id; see Findings. `Cache.ProcessFeed`, `Server.RefreshCycle`, `Server.RunWorker`
and `FetchScript.Run` take the policy. The consistency results are proved for
`SameKey`, and the counterexample shows what `WholeRecord` does.

What `delete_image` does with a missing file is a parameter of the same steps.
`RaiseIfMissing` is the code as written (`os.remove` raises `FileNotFoundError`).
`SkipIfMissing` treats the file as already deleted; see the second finding. The
consistency results hold for both.

The model follows the code, including where its behaviour is easy to misread:

- With `maxlen == 0`, `push` reads `self[0]` of an empty deque and raises
  `IndexError`. It does not evict immediately.
- `delete_image` raises `FileNotFoundError` when `images/` exists but the file does
  not. It is a no-op only when the directory is missing.
- The fetch script dumps the buffer only after every post was handled. A run that
  raises part-way leaves the old state file next to a directory that the run has
  already changed.
- In `server.py` nothing catches an exception from a refresh cycle. The first one ends
  the worker thread, and there is no retry on the next tick.
- `server.py` neither loads nor saves the pickle. Its buffer starts empty, with
  `maxlen` 25.
- Membership is whole-record equality, not id equality (see Findings).
- A `user` value that is not a dict is subscripted, and the resulting `TypeError` is
  not caught. A `caption` that is not a dict, `null` included, raises
  `AttributeError`, which is caught: the post is skipped.

## Model

| member | source | states |
|---|---|---|
| RingBuffers.Push | shared.py:9-15 | push raises IndexError exactly when maxlen is 0; otherwise the buffer stays within maxlen, a post is evicted exactly when the buffer was full, and the evicted post followed by the new contents equals the old contents followed by the item (nothing lost, FIFO) |
| RingBuffers.PushBelowCapacity | shared.py:10-14 | below capacity push returns None and the contents become the old contents with the item appended |
| RingBuffers.PushAtCapacity | shared.py:10-14 | at capacity push returns the oldest element and the contents become old[1..] + [item] |
| RingBuffers.PushFifo | shared.py:10-14 | both cases of push for any maxlen > 0 |
| RingBuffers.PushKeepsDuplicates | shared.py:9-15 | push does not deduplicate: the multiset of evicted plus kept elements is the old multiset plus the item, so a present item below capacity gains a second copy |
| RingBuffers.PushAll | shared.py:9-15 | a run of pushes fails only for maxlen 0; otherwise the evictions in order followed by the final contents are the old contents followed by everything pushed, and the length is min(maxlen, old length + pushes) |
| RingBuffers.PushAllKeepsNewestWindow | shared.py:9-15 | after any run of pushes with maxlen > 0 the length is within maxlen, the buffer ends with the last item pushed, it holds exactly the newest elements and the evicted ones are the oldest, in order |
| Dicts.DictWithout | shared.py:18-19 | the result keeps exactly the keys of d not among the dropped keys, with unchanged values |
| Dicts.DropAbsentKeysIsNoop | shared.py:18-19 | dropping keys that are absent returns the dict unchanged |
| Dicts.DictWithoutIdempotent | shared.py:18-19 | dropping the same keys twice equals dropping them once |
| Persistence.ReadRingbuffer | shared.py:22-26 | loading succeeds iff the file unpickles, giving the stored buffer; a missing file raises FileNotFoundError and an unreadable one raises its own error |
| Persistence.ReadOrCreateRingbuffer | shared.py:22-33 | an absent file, or one whose opening raises FileNotFoundError, gives an empty buffer with maxlen buffer_length; a present one is returned as stored, its own maxlen kept; an unreadable file with any other error raises exactly that error, never an empty buffer |
| Persistence.DumpThenLoad | fetch-instagram-images.py:170-171 | a dumped buffer is what the next load returns, whatever length it asks for; this holds by construction of the file model and is not the loader's contract |
| FeedDecoding.IsAd | server.py:112-113 | on a dict, is_ad is true iff "ad_action" or "injected" is a key; it raises TypeError exactly for null, numbers and booleans |
| FeedDecoding.DecodeFields | server.py:120-127 | the dict literal's lookups in source order; the first one that fails decides the exception, which is KeyError, TypeError, IndexError or AttributeError |
| FeedDecoding.DecodeFeedItem | server.py:116-129 | ads decode to None; an item on which is_ad raises gives TypeError; the only exceptions that escape are TypeError and IndexError |
| FeedDecoding.DecodeSkipsMissingKeys | server.py:120-129 | on a non-ad dict item whose user, image_versions2 and candidates, when present, are dicts and a non-empty list, decoding never raises, and a missing key (KeyError) or a caption without get (AttributeError) makes the item None instead of aborting the feed |
| FeedDecoding.DecodeMatchesReference | server.py:120-127 | an item decodes to a post iff it is not an ad and every path read exists through dicts with a non-empty candidates list; the post then holds the six values read from those paths |
| FeedDecoding.MissingCaptionTextIsEmpty | server.py:124 | a caption dict without 'text' gives the caption '' |
| FeedDecoding.NonDictCaptionIsSkipped | server.py:124-129 | a caption that is not a dict raises AttributeError, which is caught: the item decodes to None |
| FeedDecoding.NonDictUserRaises | server.py:121-122 | a user that is not a dict raises TypeError, which escapes decode_feed_item |
| FeedDecoding.EmptyCandidatesRaise | server.py:125 | an empty candidates list raises IndexError, distinct from None, when all earlier fields are present |
| FeedDecoding.DecodeAll | server.py:140 | the comprehension succeeds iff every item decodes without exception, then keeps one result per item in order; otherwise the error is that of the first failing item |
| FeedDecoding.FilterSome | server.py:138-139 | the filtered list is no longer than its input and holds exactly the values that were present |
| FeedDecoding.FilterSomeAppend | server.py:138-140 | filtering distributes over concatenation, so kept posts keep their feed order |
| FeedDecoding.StringItemDecoding | server.py:112-122 | an item that is a string (a dict key or character when items is not a list) decodes to None iff it contains an ad marker, and raises TypeError otherwise |
| FeedDecoding.DecodeItems | server.py:140 | a list's items are decoded in order as by the comprehension; null and numbers raise TypeError; any error is TypeError or IndexError |
| FeedDecoding.FetchNewsFeed | server.py:132-140 | a failed request raises; a non-200 status raises instead of returning; a success comes only from a 200 response with a JSON body; no failure is a FileNotFoundError |
| FeedDecoding.RaisingItemAbortsFeed | server.py:138-140 | an item whose decoding raises TypeError or IndexError, after items that all decode, aborts the whole fetch with that error instead of being skipped |
| FeedDecoding.DecodeItemOf | server.py:116-129 | an item holding a post's six values at the paths decode_feed_item reads decodes back to exactly that post |
| FeedDecoding.FetchFeedOf | server.py:132-140 | a 200 response whose items are those of some posts yields exactly those posts, in order |
| FeedDecoding.FeedIsDecodedItemsInOrder | fetch-instagram-images.py:56-64 | for a list of items that all decode, the feed is the decoded items with the Nones removed, and a post is in it iff some item decodes to it |
| Posts.ToDict | server.py:120-127 | a post as a dict has exactly the six keys username, full name, id, caption, image url, taken at |
| Posts.ImagePathInjective | server.py:143-144 | images/<a>.jpeg equals images/<b>.jpeg iff a equals b |
| Posts.PostFilenameParts | server.py:143-144 | post_filename is images/ followed by the rendered id and .jpeg, so the id can be read back from it; a string id appears verbatim |
| Posts.PostFilenameSharedIffSameKey | fetch-instagram-images.py:67-68 | two posts get the same image path iff their ids render to the same text, so paths and rendered ids correspond one to one |
| ImageStore.SaveImage | server.py:147-155 | save_image always leaves images/ in place; it adds the post's file unless the request fails before the file is opened, and completes iff the download completes |
| ImageStore.DeleteImage | server.py:218-221 | delete_image removes only the post's file; it is a no-op without the directory; as written it raises FileNotFoundError iff the directory exists but the file does not, and when a missing file counts as deleted it never raises |
| Cache.HandleNewPost | server.py:224-231 | a cached post changes nothing; otherwise images/ exists afterwards, a failed download raises NetworkError with the buffer untouched and images/ as it was, plus a partial file for the post when the stream broke off after the open and a failing push leaves the image written (save before push); a successful push appends the post, evicts the oldest iff full, and deletes the evicted file from the set that already has the new file (delete after save); the only exceptions are a failed download, IndexError at maxlen 0, and FileNotFoundError from a missing evicted file as written |
| Cache.CapacityTwoScenario | server.py:224-231 | with maxlen 2, handling A, B, C from an empty cache leaves [B, C] with exactly their two files: A was evicted and its file deleted |
| Cache.HandleNewPostIdempotent | fetch-instagram-images.py:149-156 | after a completed step the post counts as cached, and handling it again returns the same state |
| Cache.ProcessFeed | fetch-instagram-images.py:167-168 | the loop keeps the buffer within its unchanged maxlen, after a completed run the last post of the feed is cached, and it raises only what one step can raise |
| Cache.ProcessNewPostsFollowsPushAll | fetch-instagram-images.py:149-168 | under either membership test, including the whole-record test of the code, a consistent cache with maxlen > 0 handles a feed of new posts with distinct ids whose downloads succeed exactly as the run of pushes, and both tests take the same steps: the buffer is PushAll's, in feed order with FIFO eviction, and the files are exactly its posts' files |
| Cache.SkipIfMissingCompletes | server.py:218-231 | when a missing file counts as deleted, a feed whose downloads all succeed runs to completion from any cache with maxlen > 0, under either membership test |
| Cache.HandleByKeyPreservesConsistency | server.py:224-231 | with membership by id, a completed step keeps ids distinct and the image files exactly those of the buffered posts |
| Cache.HandleByKeyCompletes | server.py:228-231 | with membership by id, a consistent cache with maxlen > 0 never raises when the download succeeds: the evicted file is always there |
| Cache.ProcessByKeyKeepsConsistency | fetch-instagram-images.py:167-168 | with membership by id, a whole feed keeps the cache consistent, and completes when every download succeeds and maxlen > 0 |
| Cache.WholeRecordMembershipLosesImage | server.py:225-231 | as written, a post refetched with a changed caption is pushed twice, the first eviction deletes the shared file, and the second raises FileNotFoundError; membership by id completes |
| Server.InitialState | server.py:71 | the worker starts from an empty buffer with maxlen 25, which is consistent with an empty image directory |
| Server.RefreshCycle | server.py:234-238 | a feed that fails to fetch or decode raises with the cache unchanged, including on a non-200 status |
| Server.RunWorker | server.py:234-251 | the worker keeps the buffer within its maxlen, and a failing first fetch ends it with the state unchanged |
| Server.RaisedWorkerIgnoresLaterResponses | server.py:234-240 | once a cycle raises the worker is over: appending further responses changes nothing, so a later tick never retries |
| Server.WorkerByKeyKeepsConsistency | server.py:234-240 | with membership by id, completed worker cycles keep the cache consistent |
| Server.FirstWithId | server.py:40-42 | the loop finds the first post whose id equals the requested one, or none iff no post has it |
| Server.GetImage | server.py:34-51 | 404 with body Image <id> does not exist iff no buffered post has the id; otherwise 200 with images/<id>.jpeg when that file exists, FileNotFoundError when it does not |
| Server.GetImageServesEveryCachedPost | server.py:39-51 | in a consistent cache every buffered id is served with status 200 |
| Server.GetFeed | server.py:54-59 | one entry per buffered post in order, each with the five keys other than image url and the post's values |
| Server.GetFeedForgetsOnlyImageUrl | server.py:56-59 | two buffers give the same feed iff their posts agree in order on everything but the image url |
| FetchScript.Run | fetch-instagram-images.py:159-172 | the state file is rewritten only when loading, fetching and every post succeeded; then it holds a valid buffer with maxlen 25 if none was stored, or the stored maxlen; a failed fetch changes nothing; an unreadable state file raises its error with the file and images/ untouched; when a missing file counts as deleted, no run fails with FileNotFoundError |
| FetchScript.RunByKeyKeepsConsistency | fetch-instagram-images.py:163-171 | with membership by id, a successful run from a consistent start leaves a consistent file and directory, and the next load returns the dumped buffer |
| FetchScript.RunFollowsPushAll | fetch-instagram-images.py:163-171 | from a consistent start with maxlen > 0, a run over a feed of new posts with distinct ids whose downloads succeed completes and dumps exactly the loaded buffer after that run of pushes, in feed order with the oldest evicted first, next to exactly its images |
| FetchScript.FailedRunWedgesLaterRuns | fetch-instagram-images.py:143-171 | as written, a run that evicts a post and then fails on a download keeps the old state file; the next run evicts the same post again and raises FileNotFoundError, leaving file and directory as it found them, so every later run does the same; when a missing file counts as deleted, that run completes consistent |
| FetchScript.SkipIfMissingRunCompletes | fetch-instagram-images.py:143-171 | when a missing file counts as deleted, whatever state a failed run left, a run whose state file loads with maxlen > 0, whose feed arrives and whose downloads succeed completes and dumps |

## Left out

- Login and credentials (`login_session`, `handle_2factor`, `ask_for_credentials`, `get_credentials`, `save_credentials`): network calls, interactive input and credential files.
- HTTP I/O: the timeline request and the image download become parameters. Chunked streaming, image bytes, `web.json_response` serialisation and the `Content-type` header from `mimetypes` are not modelled. `get_image` returns the path it would read, not the bytes.
- Concurrency: the worker thread, the asyncio loop, the `while not ringbuffer: pass` wait, and `asyncio.sleep` between cycles. Readers that see the buffer in the middle of a cycle are not modelled.
- The pickle byte format: a readable state file stands for the buffer it decodes to, so the dump/load round trip holds by construction.
- `get_index`, static route registration, `web.run_app`, logging with `print`, and `static/slideshow.js`.
- A deque without `maxlen` (`maxlen is None`): every buffer in the program is created with a `maxlen`, so `RingBuffer` always has one.
- Failures of `os.makedirs` or of writing the pickle, and an `images` path that is not a directory.
- Str: an id that is a JSON list or object is rendered as a fixed placeholder instead of Python's `repr`, so such ids share a file name in the model.
- ImageStore.SaveImage: `Store` treats every image path as one file directly inside `images/`. An id whose text is not a plain file name (it contains `/` or a NUL character) is not modelled: opening `images/a/b.jpeg` raises FileNotFoundError after the download, which the model lets complete, and ids such as `x` and `./x` name one file through two different paths, which the model keeps apart.
- JsonValues.Json: numbers and booleans are compared by their text, so `1 == 1.0 == True`, which Python holds, is not modelled. Dict key order is not modelled: Python dicts keep insertion order and Dafny maps do not.
- FeedDecoding.DecodeItems: when `res['items']` is a dict, its keys are iterated in an order the model does not fix. This loses nothing, because every key decodes to None or raises TypeError (`FeedDecoding.StringItemDecoding`).

## Findings

| source | as written | input that shows it | evidently intended | confidence | as-written member | corrected member |
|---|---|---|---|---|---|---|
| server.py:224-231 (also fetch-instagram-images.py:149-156) | `post in ringbuffer` compares whole post dicts. A post fetched again with the same id but any changed field (an edited caption, a re-signed image url) is pushed a second time and shares `images/<id>.jpeg` with its older copy. | maxlen 2, buffer `[post 1 caption "a"]` with `images/1.jpeg`; feed `[post 1 caption "b", post 2, post 3]`. Pushing post 2 evicts the first copy and deletes `images/1.jpeg` while the second copy is still buffered. Pushing post 3 evicts that copy and `os.remove` raises FileNotFoundError. | A post is cached once per id, the identity its image file is named after. Within a run, and across runs that complete, every buffered post then has its file and every eviction finds the file it deletes. | medium; not executed | Cache.WholeRecordMembershipLosesImage | Cache.ProcessByKeyKeepsConsistency |
| fetch-instagram-images.py:143-146 (also server.py:218-221), with fetch-instagram-images.py:167-171 | `delete_image` calls `os.remove`, which raises when the file is missing. The script dumps the buffer only after every post was handled. | maxlen 2, state file `[A, B]` with both images, feed `[C, D]`, D's download fails. Pushing C evicts A and deletes `images/A.jpeg`; D raises, so `[A, B]` stays in the state file. Every later run that pushes a post loads `[A, B]`, evicts A again and raises FileNotFoundError before dumping, leaving the same state behind; a later run with no new post completes and dumps `[A, B]` unchanged, so the state stays stuck either way. | A run that fails part-way does not wedge later runs: deleting an image that is already gone is not an error, so the next run whose downloads succeed completes. | medium; not executed | FetchScript.FailedRunWedgesLaterRuns | FetchScript.SkipIfMissingRunCompletes |

=== FILE: cache.dfy ===
/** The refresh step `handle_new_post` on the bounded post buffer and the image
    directory, and the loop that applies it to every decoded post of a feed. */
module Cache {
  import opened Outcomes
  import opened JsonValues
  import opened Posts
  import opened RingBuffers
  import opened ImageStore

  /** The ring buffer of posts together with the image directory it owns. */
  datatype CacheState = CacheState(buffer: RingBuffer<Post>, store: Store) {
    predicate Valid() {
      buffer.Valid() && store.Valid()
    }
  }

  /** How `handle_new_post` decides that a post is already cached. The code tests
      `post in ringbuffer`, which compares whole dicts (`WholeRecord`); `SameKey`
      compares the ids the image files are named after. */
  datatype Membership = WholeRecord | SameKey

  predicate AlreadyCached(items: seq<Post>, p: Post, policy: Membership) {
    match policy
    case WholeRecord => p in items
    case SameKey => exists q :: q in items && Key(q) == Key(p)
  }

  /** `handle_new_post`. Membership is checked first; a new post's image is downloaded
      and written before the push; when the push evicts a post, that post's file is
      deleted after the new one was written. The evicted value is a six-key dict and
      so always truthy. */
  function HandleNewPost(s: CacheState, p: Post, fetch: Json -> ImageFetch, policy: Membership, removal: Removal): (r: Outcome<CacheState>)
    requires s.Valid()
    ensures r.state.Valid() && r.state.buffer.maxlen == s.buffer.maxlen
    ensures AlreadyCached(s.buffer.items, p, policy) ==> r == Completed(s)
    ensures r.Raised? ==> r.error in {NetworkError, IndexError} || (r.error == FileNotFoundError && removal == RaiseIfMissing)
    ensures !AlreadyCached(s.buffer.items, p, policy) ==> r.state.store.dirExists
    ensures !AlreadyCached(s.buffer.items, p, policy) && fetch(p.imageUrl) != Fetched ==>
      r == Raised(NetworkError, CacheState(s.buffer, Store(true,
        if fetch(p.imageUrl) == RequestFailed then s.store.files else s.store.files + {PostFilename(p)})))
    ensures !AlreadyCached(s.buffer.items, p, policy) && fetch(p.imageUrl) == Fetched && s.buffer.maxlen == 0 ==>
      r == Raised(IndexError, CacheState(s.buffer, Store(true, s.store.files + {PostFilename(p)})))
    ensures !AlreadyCached(s.buffer.items, p, policy) && fetch(p.imageUrl) == Fetched && s.buffer.maxlen > 0 ==>
      && r.state.buffer.items == (if s.buffer.Full() then s.buffer.items[1..] else s.buffer.items) + [p]
      && r.state.store.files == (
           if s.buffer.Full()
           then (s.store.files + {PostFilename(p)}) - {PostFilename(s.buffer.items[0])}
           else s.store.files + {PostFilename(p)})
      && (r.Raised? <==>
           removal == RaiseIfMissing && s.buffer.Full() && PostFilename(s.buffer.items[0]) !in s.store.files + {PostFilename(p)})
  {
    if AlreadyCached(s.buffer.items, p, policy) then
      Completed(s)
    else
      match SaveImage(s.store, p, fetch(p.imageUrl))
      case Raised(e, saved) => Raised(e, CacheState(s.buffer, saved))
      case Completed(saved) =>
        match Push(s.buffer, p)
        case Err(e) => Raised(e, CacheState(s.buffer, saved))
        case Ok(pushed) =>
          PushFifo(s.buffer, p);
          match pushed.evicted
          case None => Completed(CacheState(pushed.buffer, saved))
          case Some(q) =>
            match DeleteImage(saved, q, removal)
            case Completed(deleted) => Completed(CacheState(pushed.buffer, deleted))
            case Raised(e, deleted) => Raised(e, CacheState(pushed.buffer, deleted))
  }

  /** After a step that completes, the post counts as cached, so handling it again
      changes nothing. */
  lemma HandleNewPostIdempotent(s: CacheState, p: Post, fetch: Json -> ImageFetch, policy: Membership, removal: Removal)
    requires s.Valid()
    ensures var r := HandleNewPost(s, p, fetch, policy, removal);
      r.Completed? ==> AlreadyCached(r.state.buffer.items, p, policy) && HandleNewPost(r.state, p, fetch, policy, removal) == r
  {
    var r := HandleNewPost(s, p, fetch, policy, removal);
    if r.Completed? && !AlreadyCached(s.buffer.items, p, policy) {
      var items := r.state.buffer.items;
      assert items[|items| - 1] == p;
      assert p in items;
      assert AlreadyCached(items, p, policy);
    }
  }

  /** `for post in posts: await handle_new_post(ringbuffer, post, session)`; the first
      exception ends the loop. */
  function ProcessFeed(s: CacheState, posts: seq<Post>, fetch: Json -> ImageFetch, policy: Membership, removal: Removal): (r: Outcome<CacheState>)
    requires s.Valid()
    decreases |posts|
    ensures r.state.Valid() && r.state.buffer.maxlen == s.buffer.maxlen
    ensures r.Raised? ==> r.error in {NetworkError, IndexError} || (r.error == FileNotFoundError && removal == RaiseIfMissing)
    ensures r.Completed? && |posts| > 0 && s.buffer.maxlen > 0 ==>
      AlreadyCached(r.state.buffer.items, posts[|posts| - 1], policy)
  {
    if |posts| == 0 then
      Completed(s)
    else
      match HandleNewPost(s, posts[0], fetch, policy, removal)
      case Raised(e, t) => Raised(e, t)
      case Completed(t) =>
        HandleNewPostIdempotent(s, posts[0], fetch, policy, removal);
        assert |posts| == 1 ==> posts[|posts| - 1] == posts[0];
        assert |posts| > 1 ==> posts[1..][|posts[1..]| - 1] == posts[|posts| - 1];
        ProcessFeed(t, posts[1..], fetch, policy, removal)
  }

  /** No two buffered posts share an image file key. */
  predicate KeysDistinct(items: seq<Post>) {
    forall i, j :: 0 <= i < j < |items| ==> Key(items[i]) != Key(items[j])
  }

  /** The image files the buffered posts own. */
  function Filenames(items: seq<Post>): set<string> {
    set q | q in items :: PostFilename(q)
  }

  /** The intended relation between buffer and directory: one file per buffered post,
      and no other file. */
  predicate Consistent(s: CacheState) {
    s.Valid() && KeysDistinct(s.buffer.items) && s.store.files == Filenames(s.buffer.items)
  }

  lemma FilenamesAppend(items: seq<Post>, p: Post)
    ensures Filenames(items + [p]) == Filenames(items) + {PostFilename(p)}
  {
    assert forall q :: q in items + [p] <==> q in items || q == p;
  }

  lemma FreshKeyHasFreshFile(items: seq<Post>, p: Post)
    requires !AlreadyCached(items, p, SameKey)
    ensures PostFilename(p) !in Filenames(items)
    ensures forall i :: 0 <= i < |items| ==> Key(items[i]) != Key(p)
  {
    forall q | q in items
      ensures PostFilename(q) != PostFilename(p)
    {
      PostFilenameSharedIffSameKey(q, p);
    }
  }

  lemma {:induction false} FilenamesWithoutOldest(items: seq<Post>)
    requires |items| > 0 && KeysDistinct(items)
    ensures Filenames(items[1..]) == Filenames(items) - {PostFilename(items[0])}
  {
    forall q | q in items[1..]
      ensures PostFilename(q) != PostFilename(items[0])
    {
      var j :| 0 <= j < |items[1..]| && items[1..][j] == q;
      assert items[j + 1] == q;
      PostFilenameSharedIffSameKey(q, items[0]);
    }
    assert items == [items[0]] + items[1..];
    forall x | x in Filenames(items) - {PostFilename(items[0])}
      ensures x in Filenames(items[1..])
    {
      var q :| q in items && PostFilename(q) == x;
      assert q != items[0];
      assert q in items[1..];
    }
  }

  lemma KeysDistinctAppend(items: seq<Post>, p: Post)
    requires KeysDistinct(items) && forall i :: 0 <= i < |items| ==> Key(items[i]) != Key(p)
    ensures KeysDistinct(items + [p])
  {
    forall i, j | 0 <= i < j < |items + [p]|
      ensures Key((items + [p])[i]) != Key((items + [p])[j])
    {
      if j < |items| {
        assert (items + [p])[i] == items[i] && (items + [p])[j] == items[j];
      }
    }
  }

  /** With id-keyed membership every completed step keeps one file per buffered post
      and nothing else, and never buffers two posts with one key. */
  lemma {:induction false} HandleByKeyPreservesConsistency(s: CacheState, p: Post, fetch: Json -> ImageFetch, removal: Removal)
    requires Consistent(s)
    ensures var r := HandleNewPost(s, p, fetch, SameKey, removal);
      r.Completed? ==> Consistent(r.state)
  {
    var r := HandleNewPost(s, p, fetch, SameKey, removal);
    var items := s.buffer.items;
    if r.Completed? && !AlreadyCached(items, p, SameKey) {
      FreshKeyHasFreshFile(items, p);
      var rest := if s.buffer.Full() then items[1..] else items;
      if s.buffer.Full() {
        FilenamesWithoutOldest(items);
        PostFilenameSharedIffSameKey(p, items[0]);
      }
      assert Filenames(rest) + {PostFilename(p)} == r.state.store.files;
      FilenamesAppend(rest, p);
      assert r.state.buffer.items == rest + [p];
      assert KeysDistinct(rest) by {
        if s.buffer.Full() {
          forall i, j | 0 <= i < j < |rest|
            ensures Key(rest[i]) != Key(rest[j])
          {
            assert rest[i] == items[i + 1] && rest[j] == items[j + 1];
          }
        }
      }
      KeysDistinctAppend(rest, p);
    }
  }

  /** With id-keyed membership, a consistent cache never raises while downloads
      succeed and `maxlen > 0`: the evicted post's file is always there to delete. */
  lemma HandleByKeyCompletes(s: CacheState, p: Post, fetch: Json -> ImageFetch, removal: Removal)
    requires Consistent(s) && s.buffer.maxlen > 0 && fetch(p.imageUrl) == Fetched
    ensures HandleNewPost(s, p, fetch, SameKey, removal).Completed?
  {
    var items := s.buffer.items;
    if !AlreadyCached(items, p, SameKey) && s.buffer.Full() {
      assert items[0] in items;
    }
  }

  /** Over a whole feed, id-keyed membership keeps the cache consistent, and it runs to
      completion whenever every download succeeds and `maxlen > 0`. */
  lemma {:induction false} ProcessByKeyKeepsConsistency(s: CacheState, posts: seq<Post>, fetch: Json -> ImageFetch, removal: Removal)
    requires Consistent(s)
    decreases |posts|
    ensures var r := ProcessFeed(s, posts, fetch, SameKey, removal);
      && (r.Completed? ==> Consistent(r.state))
      && ((s.buffer.maxlen > 0 && forall i :: 0 <= i < |posts| ==> fetch(posts[i].imageUrl) == Fetched) ==> r.Completed?)
  {
    if |posts| > 0 {
      HandleByKeyPreservesConsistency(s, posts[0], fetch, removal);
      if s.buffer.maxlen > 0 && fetch(posts[0].imageUrl) == Fetched {
        HandleByKeyCompletes(s, posts[0], fetch, removal);
      }
      var h := HandleNewPost(s, posts[0], fetch, SameKey, removal);
      if h.Completed? {
        ProcessByKeyKeepsConsistency(h.state, posts[1..], fetch, removal);
        if forall i :: 0 <= i < |posts| ==> fetch(posts[i].imageUrl) == Fetched {
          assert forall i :: 0 <= i < |posts[1..]| ==> posts[1..][i] == posts[i + 1];
        }
      }
    }
  }

  /** A feed of new posts with distinct ids whose downloads all succeed is handled
      exactly as the same run of pushes, under either membership test (a post whose id
      is not buffered is not buffered as a whole record either): the buffer ends as
      `PushAll` leaves it, in feed order with the oldest evicted first, and the image
      files are exactly those of the posts it holds. */
  lemma {:induction false} ProcessNewPostsFollowsPushAll(s: CacheState, posts: seq<Post>, fetch: Json -> ImageFetch, policy: Membership, removal: Removal)
    requires Consistent(s) && s.buffer.maxlen > 0
    requires KeysDistinct(posts)
    requires forall i :: 0 <= i < |posts| ==> fetch(posts[i].imageUrl) == Fetched
    requires forall i :: 0 <= i < |posts| ==> !AlreadyCached(s.buffer.items, posts[i], SameKey)
    decreases |posts|
    ensures PushAll(s.buffer, posts).Ok?
    ensures ProcessFeed(s, posts, fetch, policy, removal) == ProcessFeed(s, posts, fetch, SameKey, removal)
    ensures var r := ProcessFeed(s, posts, fetch, policy, removal);
      && r.Completed?
      && r.state.buffer == PushAll(s.buffer, posts).value.0
      && r.state.store.files == Filenames(r.state.buffer.items)
  {
    if |posts| > 0 {
      var p, rest := posts[0], posts[1..];
      NewPostIsPushed(s, p, fetch, policy, removal);
      var h := HandleNewPost(s, p, fetch, SameKey, removal);
      assert forall i :: 0 <= i < |rest| ==> rest[i] == posts[i + 1];
      assert KeysDistinct(rest);
      forall i | 0 <= i < |rest|
        ensures !AlreadyCached(h.state.buffer.items, rest[i], SameKey)
      {
        assert Key(p) != Key(rest[i]);
        StillFreshAfterPush(s.buffer.items, h.state.buffer.items, p, rest[i]);
      }
      ProcessNewPostsFollowsPushAll(h.state, rest, fetch, policy, removal);
    }
  }

  /** One step of `ProcessNewPostsFollowsPushAll`: a new post is handled as a push,
      alike under both membership tests, and the cache stays consistent. */
  lemma NewPostIsPushed(s: CacheState, p: Post, fetch: Json -> ImageFetch, policy: Membership, removal: Removal)
    requires Consistent(s) && s.buffer.maxlen > 0 && fetch(p.imageUrl) == Fetched
    requires !AlreadyCached(s.buffer.items, p, SameKey)
    ensures var h := HandleNewPost(s, p, fetch, SameKey, removal);
      && HandleNewPost(s, p, fetch, policy, removal) == h
      && h.Completed? && Consistent(h.state)
      && Push(s.buffer, p).Ok? && h.state.buffer == Push(s.buffer, p).value.buffer
  {
    HandleByKeyCompletes(s, p, fetch, removal);
    HandleByKeyPreservesConsistency(s, p, fetch, removal);
    PushFifo(s.buffer, p);
    assert !AlreadyCached(s.buffer.items, p, policy) by {
      if p in s.buffer.items {
        assert AlreadyCached(s.buffer.items, p, SameKey);
      }
    }
  }

  /** A key absent from the buffer and different from the pushed post's key is still
      absent after the push. */
  lemma StillFreshAfterPush(items: seq<Post>, pushed: seq<Post>, p: Post, x: Post)
    requires pushed == items + [p] || (|items| > 0 && pushed == items[1..] + [p])
    requires !AlreadyCached(items, x, SameKey) && Key(p) != Key(x)
    ensures !AlreadyCached(pushed, x, SameKey)
  {
    forall q | q in pushed
      ensures Key(q) != Key(x)
    {
      assert q in items || q == p;
    }
  }


  /** When a missing file counts as already deleted, a feed whose downloads all succeed
      is handled to the end from any cache with `maxlen > 0`, whatever the directory
      holds and under either membership test. */
  lemma {:induction false} SkipIfMissingCompletes(s: CacheState, posts: seq<Post>, fetch: Json -> ImageFetch, policy: Membership)
    requires s.Valid() && s.buffer.maxlen > 0
    requires forall i :: 0 <= i < |posts| ==> fetch(posts[i].imageUrl) == Fetched
    decreases |posts|
    ensures ProcessFeed(s, posts, fetch, policy, SkipIfMissing).Completed?
  {
    if |posts| > 0 {
      var h := HandleNewPost(s, posts[0], fetch, policy, SkipIfMissing);
      if !AlreadyCached(s.buffer.items, posts[0], policy) {
        assert fetch(posts[0].imageUrl) == Fetched;
      }
      assert h.Completed?;
      assert forall i :: 0 <= i < |posts[1..]| ==> posts[1..][i] == posts[i + 1];
      SkipIfMissingCompletes(h.state, posts[1..], fetch, policy);
    }
  }

  /** With `maxlen` 2, pushing A and B keeps both; pushing C evicts A, whose image file
      is deleted, leaving B and C with exactly their two files. */
  lemma CapacityTwoScenario(policy: Membership, removal: Removal)
    ensures var fetch := (u: Json) => Fetched;
      var a, b, c := SamplePost("A", "a"), SamplePost("B", "b"), SamplePost("C", "c");
      ProcessFeed(CacheState(RingBuffer([], 2), Store(false, {})), [a, b, c], fetch, policy, removal)
        == Completed(CacheState(RingBuffer([b, c], 2), Store(true, {"images/B.jpeg", "images/C.jpeg"})))
  {
    var fetch := (u: Json) => Fetched;
    var a, b, c := SamplePost("A", "a"), SamplePost("B", "b"), SamplePost("C", "c");
    assert PostFilename(a) == "images/A.jpeg";
    assert PostFilename(b) == "images/B.jpeg";
    assert PostFilename(c) == "images/C.jpeg";
    assert Key(a) != Key(b) && Key(a) != Key(c) && Key(b) != Key(c);
    assert fetch(a.imageUrl) == Fetched && fetch(b.imageUrl) == Fetched && fetch(c.imageUrl) == Fetched;
    var s0 := CacheState(RingBuffer([], 2), Store(false, {}));
    assert !AlreadyCached([], a, policy);
    var s1 := HandleNewPost(s0, a, fetch, policy, removal);
    assert [] + [a] == [a];
    assert s1.Completed?;
    assert s1.state.buffer.items == [a];
    assert s1.state.buffer == RingBuffer([a], 2);
    assert s1.state.store.files == {"images/A.jpeg"};
    assert s1.state.store.dirExists;
    assert s1 == Completed(CacheState(RingBuffer([a], 2), Store(true, {"images/A.jpeg"})));
    assert !AlreadyCached([a], b, policy);
    var s2 := HandleNewPost(s1.state, b, fetch, policy, removal);
    assert [a] + [b] == [a, b];
    assert s2.Completed?;
    assert s2.state.buffer == RingBuffer([a, b], 2);
    assert s2.state.store.files == {"images/A.jpeg", "images/B.jpeg"};
    assert s2 == Completed(CacheState(RingBuffer([a, b], 2), Store(true, {"images/A.jpeg", "images/B.jpeg"})));
    assert !AlreadyCached([a, b], c, policy);
    var s3 := HandleNewPost(s2.state, c, fetch, policy, removal);
    assert [a, b][1..] + [c] == [b, c];
    assert ({"images/A.jpeg", "images/B.jpeg"} + {"images/C.jpeg"}) - {"images/A.jpeg"} == {"images/B.jpeg", "images/C.jpeg"};
    assert s3 == Completed(CacheState(RingBuffer([b, c], 2), Store(true, {"images/B.jpeg", "images/C.jpeg"})));
    assert [a, b, c][1..] == [b, c] && [b, c][1..] == [c] && [c][1..] == [];
  }

  /** Two posts with one id that differ in another field (here the caption). */
  function SamplePost(id: string, caption: string): Post {
    Post(JString("user"), JString("User"), JString(id), JString(caption), JString("https://cdn/" + id), JScalar("0"))
  }

  /** Whole-record membership lets a post whose caption changed between two fetches
      enter the buffer a second time under the same image file. The first eviction
      deletes that shared file while the second copy is still buffered, and the second
      eviction then raises `FileNotFoundError`; id-keyed membership skips the repeat
      and stays consistent. */
  lemma WholeRecordMembershipLosesImage()
    ensures var fetch := (u: Json) => Fetched;
      var start := CacheState(RingBuffer([SamplePost("1", "a")], 2), Store(true, {"images/1.jpeg"}));
      var feed := [SamplePost("1", "b"), SamplePost("2", "c"), SamplePost("3", "d")];
      && Consistent(start)
      && ProcessFeed(start, feed, fetch, WholeRecord, RaiseIfMissing) == Raised(FileNotFoundError,
           CacheState(RingBuffer([SamplePost("2", "c"), SamplePost("3", "d")], 2), Store(true, {"images/2.jpeg", "images/3.jpeg"})))
      && ProcessFeed(start, feed, fetch, SameKey, RaiseIfMissing).Completed?
  {
    var fetch := (u: Json) => Fetched;
    var a, b, c, d := SamplePost("1", "a"), SamplePost("1", "b"), SamplePost("2", "c"), SamplePost("3", "d");
    assert PostFilename(a) == "images/1.jpeg" == PostFilename(b);
    assert PostFilename(c) == "images/2.jpeg";
    assert PostFilename(d) == "images/3.jpeg";
    var start := CacheState(RingBuffer([a], 2), Store(true, {"images/1.jpeg"}));
    assert Filenames([a]) == {"images/1.jpeg"};
    assert a != b;
    assert fetch(b.imageUrl) == Fetched && fetch(c.imageUrl) == Fetched && fetch(d.imageUrl) == Fetched;
    assert !AlreadyCached([a], b, WholeRecord);
    var s1 := HandleNewPost(start, b, fetch, WholeRecord, RaiseIfMissing);
    assert s1.state.buffer.items == [a] + [b] == [a, b];
    assert s1.state.store.files == {"images/1.jpeg"};
    assert s1 == Completed(CacheState(RingBuffer([a, b], 2), Store(true, {"images/1.jpeg"})));
    assert !AlreadyCached([a, b], c, WholeRecord);
    var s2 := HandleNewPost(s1.state, c, fetch, WholeRecord, RaiseIfMissing);
    assert [a, b][1..] + [c] == [b, c];
    assert s2.state.store.files == ({"images/1.jpeg"} + {"images/2.jpeg"}) - {"images/1.jpeg"} == {"images/2.jpeg"};
    assert s2 == Completed(CacheState(RingBuffer([b, c], 2), Store(true, {"images/2.jpeg"})));
    assert !AlreadyCached([b, c], d, WholeRecord);
    var s3 := HandleNewPost(s2.state, d, fetch, WholeRecord, RaiseIfMissing);
    assert [b, c][1..] + [d] == [c, d];
    assert s3.state.store.files == ({"images/2.jpeg"} + {"images/3.jpeg"}) - {"images/1.jpeg"} == {"images/2.jpeg", "images/3.jpeg"};
    assert s3 == Raised(FileNotFoundError, CacheState(RingBuffer([c, d], 2), Store(true, {"images/2.jpeg", "images/3.jpeg"})));
    assert ProcessFeed(start, [b, c, d], fetch, WholeRecord, RaiseIfMissing) == s3;
    assert [b, c, d][1..] == [c, d];
    ProcessByKeyKeepsConsistency(start, [b, c, d], fetch, RaiseIfMissing);
  }
}

=== FILE: dicts.dfy ===
/** `dict_without`: a dict with some keys dropped. */
module Dicts {

  /** `dict_without(d, *keys_to_drop)`. The keys to drop arrive as a tuple and are
      checked with `in`. */
  function DictWithout<K(!new), V>(d: map<K, V>, keysToDrop: seq<K>): (r: map<K, V>)
    ensures forall k :: k in r <==> k in d && k !in keysToDrop
    ensures forall k :: k in r ==> r[k] == d[k]
  {
    map k | k in d && k !in keysToDrop :: d[k]
  }

  /** Dropping keys the dict does not have leaves it unchanged. */
  lemma DropAbsentKeysIsNoop<K(!new), V>(d: map<K, V>, keysToDrop: seq<K>)
    requires forall k :: k in keysToDrop ==> k !in d
    ensures DictWithout(d, keysToDrop) == d
  {
    var r := DictWithout(d, keysToDrop);
    assert r.Keys == d.Keys;
  }

  /** Dropping the same keys twice is dropping them once. */
  lemma DictWithoutIdempotent<K(!new), V>(d: map<K, V>, keysToDrop: seq<K>)
    ensures DictWithout(DictWithout(d, keysToDrop), keysToDrop) == DictWithout(d, keysToDrop)
  {
    var once := DictWithout(d, keysToDrop);
    DropAbsentKeysIsNoop(once, keysToDrop);
  }
}

=== FILE: feed_decoding.dfy ===
/** Turning the raw timeline response into posts: `is_ad`, `decode_feed_item` and the
    decoding and `None`-filtering in `fetch_news_feed`. */
module FeedDecoding {
  import opened Outcomes
  import opened JsonValues
  import opened Posts

  /** `is_ad`: the item has an `ad_action` or an `injected` key. Applied to a value that
      is not a dict, `in` means element or substring membership, or raises. */
  function IsAd(item: Json): (r: Result<bool>)
    ensures item.JObject? ==> r == Ok("ad_action" in item.fields || "injected" in item.fields)
    ensures r.Err? <==> item.JNull? || item.JScalar?
    ensures r.Err? ==> r.error == TypeError
  {
    var hasAdAction :- In("ad_action", item);
    if hasAdAction then Ok(true) else In("injected", item)
  }

  /** The dict literal of `decode_feed_item`, its six values evaluated in source order;
      the first lookup that raises decides the exception. */
  function DecodeFields(item: Json): (r: Result<Post>)
    ensures r.Err? ==> r.error in {KeyError, TypeError, IndexError, AttributeError}
  {
    var user :- Subscript(item, "user");
    var username :- Subscript(user, "username");
    var fullName :- Subscript(user, "full_name");
    var id :- Subscript(item, "id");
    var captionObject :- Subscript(item, "caption");
    var caption :- GetOr(captionObject, "text", JString(""));
    var versions :- Subscript(item, "image_versions2");
    var candidates :- Subscript(versions, "candidates");
    var first :- SubscriptFirst(candidates);
    var url :- Subscript(first, "url");
    var takenAt :- Subscript(item, "taken_at");
    Ok(Post(username, fullName, id, caption, url, takenAt))
  }

  /** `decode_feed_item`: ads decode to `None`, a `KeyError` or `AttributeError` is
      caught and gives `None`, and any other exception escapes. */
  function DecodeFeedItem(item: Json): (r: Result<Option<Post>>)
    ensures IsAd(item) == Ok(true) ==> r == Ok(None)
    ensures IsAd(item).Err? ==> r == Err(TypeError)
    ensures r.Err? ==> r.error in {TypeError, IndexError}
  {
    var ad :- IsAd(item);
    if ad then Ok(None)
    else
      match DecodeFields(item)
      case Ok(p) => Ok(Some(p))
      case Err(e) => if e == KeyError || e == AttributeError then Ok(None) else Err(e)
  }

  /** An independent description of a decodable item: every path the decoder reads
      exists and leads through dicts, and the candidates list is not empty. */
  predicate WellFormedItem(item: Json) {
    && item.JObject?
    && var m := item.fields;
    && "user" in m && m["user"].JObject?
    && "username" in m["user"].fields && "full_name" in m["user"].fields
    && "id" in m
    && "caption" in m && m["caption"].JObject?
    && "image_versions2" in m && m["image_versions2"].JObject?
    && "candidates" in m["image_versions2"].fields
    && var candidates := m["image_versions2"].fields["candidates"];
    && candidates.JArray? && |candidates.elems| > 0
    && candidates.elems[0].JObject? && "url" in candidates.elems[0].fields
    && "taken_at" in m
  }

  /** The post a well-formed item stands for, each value read from its path. */
  function ExpectedPost(item: Json): Post
    requires WellFormedItem(item)
  {
    var m := item.fields;
    var user := m["user"].fields;
    var caption := m["caption"].fields;
    Post(
      user["username"],
      user["full_name"],
      m["id"],
      if "text" in caption then caption["text"] else JString(""),
      m["image_versions2"].fields["candidates"].elems[0].fields["url"],
      m["taken_at"])
  }

  /** An item decodes to a post exactly when it is not an ad and is well formed, and
      then the post is the one its paths describe. */
  lemma DecodeMatchesReference(item: Json)
    ensures DecodeFeedItem(item).Ok? && DecodeFeedItem(item).value.Some?
      <==> IsAd(item) == Ok(false) && WellFormedItem(item)
    ensures IsAd(item) == Ok(false) && WellFormedItem(item)
      ==> DecodeFeedItem(item) == Ok(Some(ExpectedPost(item)))
  {
    if DecodeFields(item).Ok? {
      assert WellFormedItem(item);
      assert DecodeFields(item) == Ok(ExpectedPost(item));
    }
  }

  /** The decoder reads through dicts only: the item is a dict, a `user` or
      `image_versions2` that is present is a dict, and `candidates`, when present, is a
      non-empty list starting with a dict. Keys may be missing, and the caption may be
      anything. */
  predicate ReadsThroughDicts(item: Json) {
    && item.JObject?
    && var m := item.fields;
    && ("user" in m ==> m["user"].JObject?)
    && ("image_versions2" in m ==> m["image_versions2"].JObject?)
    && ("image_versions2" in m && "candidates" in m["image_versions2"].fields ==>
         var candidates := m["image_versions2"].fields["candidates"];
         candidates.JArray? && |candidates.elems| > 0 && candidates.elems[0].JObject?)
  }

  /** On an item the decoder reads through dicts only, a missing key raises `KeyError`
      and a caption without `get` raises `AttributeError`; both are caught, so the item
      is skipped instead of aborting the feed. Such an item never raises. */
  lemma DecodeSkipsMissingKeys(item: Json)
    requires IsAd(item) == Ok(false) && ReadsThroughDicts(item)
    ensures DecodeFeedItem(item).Ok?
    ensures !WellFormedItem(item) ==> DecodeFeedItem(item) == Ok(None)
  {
    DecodeMatchesReference(item);
  }

  /** A caption dict without a `text` key decodes to the empty caption. */
  lemma MissingCaptionTextIsEmpty(item: Json)
    requires IsAd(item) == Ok(false) && WellFormedItem(item)
    requires "text" !in item.fields["caption"].fields
    ensures DecodeFeedItem(item).Ok? && DecodeFeedItem(item).value.Some?
    ensures DecodeFeedItem(item).value.value.caption == JString("")
  {
    DecodeMatchesReference(item);
  }

  /** A caption that is not a dict (a `null` caption, say) has no `get`, and the
      `AttributeError` is caught: the item is skipped. */
  lemma NonDictCaptionIsSkipped(item: Json)
    requires item.JObject? && IsAd(item) == Ok(false)
    requires var m := item.fields;
      && "user" in m && m["user"].JObject?
      && "username" in m["user"].fields && "full_name" in m["user"].fields
      && "id" in m && "caption" in m && !m["caption"].JObject?
    ensures DecodeFeedItem(item) == Ok(None)
  {
  }

  /** A `user` that is not a dict is subscripted anyway; the `TypeError` is not among
      the caught exceptions and escapes. */
  lemma NonDictUserRaises(item: Json)
    requires item.JObject? && IsAd(item) == Ok(false)
    requires "user" in item.fields && !item.fields["user"].JObject?
    ensures DecodeFeedItem(item) == Err(TypeError)
  {
  }

  /** An empty candidates list makes `[0]` raise `IndexError`, which escapes. */
  lemma EmptyCandidatesRaise(item: Json)
    requires item.JObject? && IsAd(item) == Ok(false)
    requires var m := item.fields;
      && "user" in m && m["user"].JObject?
      && "username" in m["user"].fields && "full_name" in m["user"].fields
      && "id" in m && "caption" in m && m["caption"].JObject?
      && "image_versions2" in m && m["image_versions2"].JObject?
      && "candidates" in m["image_versions2"].fields
      && m["image_versions2"].fields["candidates"] == JArray([])
    ensures DecodeFeedItem(item) == Err(IndexError)
  {
  }

  /** The list comprehension `[decode_feed_item(item) for item in items]`: every item is
      decoded in order, and the first exception escapes. */
  function DecodeAll(xs: seq<Json>): (r: Result<seq<Option<Post>>>)
    decreases |xs|
    ensures r.Ok? <==> forall i :: 0 <= i < |xs| ==> DecodeFeedItem(xs[i]).Ok?
    ensures r.Ok? ==> |r.value| == |xs|
    ensures r.Ok? ==> forall i :: 0 <= i < |xs| ==> DecodeFeedItem(xs[i]) == Ok(r.value[i])
    ensures r.Err? ==>
      exists i :: 0 <= i < |xs| && DecodeFeedItem(xs[i]) == Err(r.error) && (forall j :: 0 <= j < i ==> DecodeFeedItem(xs[j]).Ok?)
  {
    if |xs| == 0 then
      Ok([])
    else
      match DecodeFeedItem(xs[0])
      case Err(e) => Err(e)
      case Ok(d) =>
        match DecodeAll(xs[1..])
        case Err(e) =>
          assert forall i :: 1 <= i < |xs| ==> xs[i] == xs[1..][i - 1];
          Err(e)
        case Ok(rest) =>
          assert forall i :: 1 <= i < |xs| ==> xs[i] == xs[1..][i - 1];
          Ok([d] + rest)
  }

  /** `filter(lambda i: i is not None, ...)`: the present values, in order. */
  function FilterSome(xs: seq<Option<Post>>): (r: seq<Post>)
    decreases |xs|
    ensures |r| <= |xs|
    ensures forall y :: y in r <==> Some(y) in xs
  {
    if |xs| == 0 then []
    else
      var rest := FilterSome(xs[1..]);
      assert forall y :: Some(y) in xs <==> xs[0] == Some(y) || Some(y) in xs[1..];
      match xs[0]
      case None => rest
      case Some(x) => [x] + rest
  }

  /** Filtering distributes over concatenation, so the kept values appear in the order
      their items had. */
  lemma {:induction false} FilterSomeAppend(a: seq<Option<Post>>, b: seq<Option<Post>>)
    ensures FilterSome(a + b) == FilterSome(a) + FilterSome(b)
    decreases |a|
  {
    if |a| == 0 {
      assert a + b == b;
    } else {
      assert (a + b)[1..] == a[1..] + b;
      FilterSomeAppend(a[1..], b);
    }
  }

  /** A dict key as an item: `is_ad` is a substring test, and a key that is not an ad
      is then subscripted with `'user'`, which raises `TypeError`. */
  predicate IsAdText(s: string) {
    IsSubstring("ad_action", s) || IsSubstring("injected", s)
  }

  lemma StringItemDecoding(s: string)
    ensures DecodeFeedItem(JString(s)) == if IsAdText(s) then Ok(None) else Err(TypeError)
  {
  }

  /** The items of `res['items']` as Python iterates them: the elements of a list, the
      one-character strings of a string, the keys of a dict. */
  function DecodeItems(items: Json): (r: Result<seq<Option<Post>>>)
    ensures items.JArray? ==> r == DecodeAll(items.elems)
    ensures items.JNull? || items.JScalar? ==> r == Err(TypeError)
    ensures r.Err? ==> r.error in {TypeError, IndexError}
  {
    match items
    case JArray(xs) => DecodeAll(xs)
    case JString(s) => DecodeAll(seq(|s|, i requires 0 <= i < |s| => JString([s[i]])))
    case JObject(m) =>
      // Every key decodes to `None` or raises `TypeError` (see StringItemDecoding),
      // so the order in which the keys are visited does not matter.
      if forall k :: k in m ==> IsAdText(k) then Ok(seq(|m|, i => None)) else Err(TypeError)
    case _ => Err(TypeError)
  }

  /** The timeline response as the HTTP collaborator delivers it: no response at all,
      or a status code with a body that is JSON or not. */
  datatype FeedResponse = Unreachable | Received(status: int, payload: Option<Json>)

  /** The decoding part of `fetch_news_feed`: a non-200 status raises, `res['items']`
      is decoded item by item, and the `None`s are dropped. */
  function FetchNewsFeed(response: FeedResponse): (r: Result<seq<Post>>)
    ensures response.Unreachable? ==> r == Err(NetworkError)
    ensures response.Received? && response.status != 200 ==> r == Err(StatusError(response.status))
    ensures r.Ok? ==> response.Received? && response.status == 200 && response.payload.Some?
    ensures r.Err? ==> r.error.StatusError? || r.error in {NetworkError, ContentError, KeyError, TypeError, IndexError}
  {
    match response
    case Unreachable => Err(NetworkError)
    case Received(status, payload) =>
      if status != 200 then Err(StatusError(status))
      else
        match payload
        case None => Err(ContentError)
        case Some(body) =>
          var items :- Subscript(body, "items");
          var decoded :- DecodeItems(items);
          Ok(FilterSome(decoded))
  }

  /** For a list of items that all decode, the feed holds exactly the decoded posts,
      in the items' order, each one the decoding of some item. */
  lemma FeedIsDecodedItemsInOrder(m: map<string, Json>, xs: seq<Json>)
    requires "items" in m && m["items"] == JArray(xs)
    requires forall i :: 0 <= i < |xs| ==> DecodeFeedItem(xs[i]).Ok?
    ensures var r := FetchNewsFeed(Received(200, Some(JObject(m))));
      && r.Ok?
      && r.value == FilterSome(DecodeAll(xs).value)
      && forall p :: p in r.value <==> exists i :: 0 <= i < |xs| && DecodeFeedItem(xs[i]) == Ok(Some(p))
  {
    var ds := DecodeAll(xs).value;
    forall p
      ensures Some(p) in ds <==> exists i :: 0 <= i < |xs| && DecodeFeedItem(xs[i]) == Ok(Some(p))
    {
      if Some(p) in ds {
        var i :| 0 <= i < |ds| && ds[i] == Some(p);
        assert DecodeFeedItem(xs[i]) == Ok(Some(p));
      }
    }
  }

  /** `fetch_news_feed` has no `try`: the first item whose decoding raises (a
      `TypeError` or `IndexError` that `decode_feed_item` does not catch) aborts the
      whole fetch with that error, instead of being skipped. */
  lemma RaisingItemAbortsFeed(m: map<string, Json>, xs: seq<Json>, i: nat)
    requires "items" in m && m["items"] == JArray(xs)
    requires i < |xs| && DecodeFeedItem(xs[i]).Err?
    requires forall j :: 0 <= j < i ==> DecodeFeedItem(xs[j]).Ok?
    ensures FetchNewsFeed(Received(200, Some(JObject(m)))) == Err(DecodeFeedItem(xs[i]).error)
  {
    var r := DecodeAll(xs);
    assert r.Err?;
    var k :| 0 <= k < |xs| && DecodeFeedItem(xs[k]) == Err(r.error) && (forall j :: 0 <= j < k ==> DecodeFeedItem(xs[j]).Ok?);
    assert !(k < i);
    assert !(i < k);
  }

  /** The timeline item a post is read from: each of its six values at the path
      `decode_feed_item` reads it from, and no ad marker. */
  function ItemOf(p: Post): Json {
    JObject(map[
      "user" := JObject(map["username" := p.username, "full_name" := p.fullName]),
      "id" := p.id,
      "caption" := JObject(map["text" := p.caption]),
      "image_versions2" := JObject(map["candidates" := JArray([JObject(map["url" := p.imageUrl])])]),
      "taken_at" := p.takenAt])
  }

  /** Every post is recovered from the item it is read from. */
  lemma DecodeItemOf(p: Post)
    ensures DecodeFeedItem(ItemOf(p)) == Ok(Some(p))
  {
    var item := ItemOf(p);
    assert "ad_action" !in item.fields && "injected" !in item.fields;
    assert WellFormedItem(item);
    DecodeMatchesReference(item);
  }

  lemma {:induction false} FilterSomeAllPresent(xs: seq<Option<Post>>, posts: seq<Post>)
    requires |xs| == |posts| && forall i :: 0 <= i < |xs| ==> xs[i] == Some(posts[i])
    decreases |xs|
    ensures FilterSome(xs) == posts
  {
    if |xs| > 0 {
      FilterSomeAllPresent(xs[1..], posts[1..]);
    }
  }

  /** A successful timeline response whose items are those of the given posts. */
  function FeedOf(posts: seq<Post>): FeedResponse {
    Received(200, Some(JObject(map["items" := JArray(seq(|posts|, i requires 0 <= i < |posts| => ItemOf(posts[i])))])))
  }

  /** Fetching such a response yields exactly those posts, in order. */
  lemma FetchFeedOf(posts: seq<Post>)
    ensures FetchNewsFeed(FeedOf(posts)) == Ok(posts)
  {
    var xs := seq(|posts|, i requires 0 <= i < |posts| => ItemOf(posts[i]));
    forall i | 0 <= i < |xs|
      ensures DecodeFeedItem(xs[i]) == Ok(Some(posts[i]))
    {
      DecodeItemOf(posts[i]);
    }
    FeedIsDecodedItemsInOrder(map["items" := JArray(xs)], xs);
    FilterSomeAllPresent(DecodeAll(xs).value, posts);
  }
}

=== FILE: fetch_script.dfy ===
/** The stand-alone fetch script: load the buffer, fetch and handle one feed page,
    dump the buffer. */
module FetchScript {
  import opened Outcomes
  import opened JsonValues
  import opened Posts
  import opened RingBuffers
  import opened ImageStore
  import opened FeedDecoding
  import opened Cache
  import opened Persistence

  /** `BUFFER_LENGTH`. */
  const BufferLength: nat := 25

  /** The state file and image directory a run leaves behind, and the exception that
      ended it, if any. */
  datatype RunResult = RunResult(file: StateFile, store: Store, error: Option<PyError>)

  /** `main` after the login: `read_or_create_ringbuffer(25)`, fetch the feed, handle
      each post in feed order, and only when all of that finished, dump the buffer.
      An exception anywhere leaves the state file as it was. */
  function Run(file: StateFile, store: Store, response: FeedResponse, fetch: Json -> ImageFetch, policy: Membership, removal: Removal): (r: RunResult)
    requires store.Valid() && (file.Present? ==> file.buffer.Valid())
    ensures r.store.Valid()
    ensures r.error.Some? ==> r.file == file
    ensures r.error.None? ==> r.file.Present? && r.file.buffer.Valid()
    ensures r.error.None? && file.Absent? ==> r.file.buffer.maxlen == BufferLength
    ensures r.error.None? && file.Present? ==> r.file.buffer.maxlen == file.buffer.maxlen
    ensures FetchNewsFeed(response).Err? ==> r.store == store && r.error.Some?
    ensures file.Unreadable? && file.error != FileNotFoundError ==> r == RunResult(file, store, Some(file.error))
    ensures removal == SkipIfMissing ==> r.error != Some(FileNotFoundError)
  {
    match ReadOrCreateRingbuffer(file, BufferLength)
    case Err(e) => RunResult(file, store, Some(e))
    case Ok(buffer) =>
      match FetchNewsFeed(response)
      case Err(e) => RunResult(file, store, Some(e))
      case Ok(posts) =>
        match ProcessFeed(CacheState(buffer, store), posts, fetch, policy, removal)
        case Raised(e, t) => RunResult(file, t.store, Some(e))
        case Completed(t) => RunResult(Dump(t.buffer), t.store, None)
  }

  /** The state a run starts from is consistent: no file and no images, or a stored
      buffer whose images are exactly in place. */
  predicate ConsistentStart(file: StateFile, store: Store) {
    || (file.Absent? && store.Valid() && store.files == {})
    || (file.Present? && Consistent(CacheState(file.buffer, store)))
  }

  /** Under id-keyed membership a successful run dumps a buffer whose images are
      exactly in place, so the next run starts consistent again and loads precisely the
      buffer that was dumped. */
  lemma RunByKeyKeepsConsistency(file: StateFile, store: Store, response: FeedResponse, fetch: Json -> ImageFetch, removal: Removal)
    requires ConsistentStart(file, store)
    ensures var r := Run(file, store, response, fetch, SameKey, removal);
      r.error.None? ==> ConsistentStart(r.file, r.store) && ReadOrCreateRingbuffer(r.file, BufferLength) == Ok(r.file.buffer)
  {
    var loaded := ReadOrCreateRingbuffer(file, BufferLength);
    assert loaded.Ok?;
    assert Consistent(CacheState(loaded.value, store));
    if FetchNewsFeed(response).Ok? {
      ProcessByKeyKeepsConsistency(CacheState(loaded.value, store), FetchNewsFeed(response).value, fetch, removal);
    }
  }

  /** The posts a run starts from: the stored ones, or none. */
  function StoredItems(file: StateFile): seq<Post> {
    if file.Present? then file.buffer.items else []
  }

  /** A successful run dumps exactly the buffer the loop over the feed leaves. From a
      consistent start with `maxlen > 0`, a feed of new posts with distinct ids whose
      downloads all succeed is dumped as the loaded buffer after that run of pushes, in
      feed order with the oldest evicted first, next to exactly its images, under either
      membership test. */
  lemma RunFollowsPushAll(file: StateFile, store: Store, response: FeedResponse, fetch: Json -> ImageFetch, policy: Membership, removal: Removal)
    requires ConsistentStart(file, store) && (file.Present? ==> file.buffer.maxlen > 0)
    requires FetchNewsFeed(response).Ok? && KeysDistinct(FetchNewsFeed(response).value)
    requires forall i :: 0 <= i < |FetchNewsFeed(response).value| ==> fetch(FetchNewsFeed(response).value[i].imageUrl) == Fetched
    requires forall i :: 0 <= i < |FetchNewsFeed(response).value| ==> !AlreadyCached(StoredItems(file), FetchNewsFeed(response).value[i], SameKey)
    ensures var b := ReadOrCreateRingbuffer(file, BufferLength).value;
      var r := Run(file, store, response, fetch, policy, removal);
      && PushAll(b, FetchNewsFeed(response).value).Ok?
      && r.error.None?
      && r.file == Present(PushAll(b, FetchNewsFeed(response).value).value.0)
      && r.store.files == Filenames(r.file.buffer.items)
  {
    var b := ReadOrCreateRingbuffer(file, BufferLength).value;
    assert b.items == StoredItems(file);
    assert Consistent(CacheState(b, store));
    ProcessNewPostsFollowsPushAll(CacheState(b, store), FetchNewsFeed(response).value, fetch, policy, removal);
  }

  /** When a missing file counts as already deleted, no state a failed run leaves
      behind can stop a later run: once the state file loads with `maxlen > 0`, the
      feed arrives and every download succeeds, the run completes and dumps. */
  lemma SkipIfMissingRunCompletes(file: StateFile, store: Store, response: FeedResponse, fetch: Json -> ImageFetch, policy: Membership)
    requires store.Valid() && (file.Present? ==> file.buffer.Valid() && file.buffer.maxlen > 0)
    requires file.Unreadable? ==> file.error == FileNotFoundError
    requires FetchNewsFeed(response).Ok?
    requires forall i :: 0 <= i < |FetchNewsFeed(response).value| ==> fetch(FetchNewsFeed(response).value[i].imageUrl) == Fetched
    ensures Run(file, store, response, fetch, policy, SkipIfMissing).error.None?
  {
    var loaded := ReadOrCreateRingbuffer(file, BufferLength);
    SkipIfMissingCompletes(CacheState(loaded.value, store), FetchNewsFeed(response).value, fetch, policy);
  }

  /** The four posts of the wedge scenario, ids A to D, with the files they own. */
  lemma WedgePosts()
    ensures PostFilename(SamplePost("A", "a")) == "images/A.jpeg" && PostFilename(SamplePost("B", "b")) == "images/B.jpeg"
    ensures PostFilename(SamplePost("C", "c")) == "images/C.jpeg" && PostFilename(SamplePost("D", "d")) == "images/D.jpeg"
    ensures SamplePost("C", "c").imageUrl != SamplePost("D", "d").imageUrl
    ensures forall policy: Membership :: !AlreadyCached([SamplePost("A", "a"), SamplePost("B", "b")], SamplePost("C", "c"), policy)
    ensures forall policy: Membership :: !AlreadyCached([SamplePost("B", "b"), SamplePost("C", "c")], SamplePost("D", "d"), policy)
  {
    var a, b, c, d := SamplePost("A", "a"), SamplePost("B", "b"), SamplePost("C", "c"), SamplePost("D", "d");
    assert Key(a) == "A" && Key(b) == "B" && Key(c) == "C" && Key(d) == "D";
    assert c.imageUrl.str[12] == 'C' && d.imageUrl.str[12] == 'D';
  }

  /** The feed pass of the failing run: C evicts A, whose image is deleted, then D's
      download fails. */
  lemma WedgeFirstPass(fetch: Json -> ImageFetch, policy: Membership)
    requires fetch(SamplePost("C", "c").imageUrl) == Fetched && fetch(SamplePost("D", "d").imageUrl) == RequestFailed
    ensures var a, b, c, d := SamplePost("A", "a"), SamplePost("B", "b"), SamplePost("C", "c"), SamplePost("D", "d");
      ProcessFeed(CacheState(RingBuffer([a, b], 2), Store(true, {"images/A.jpeg", "images/B.jpeg"})), [c, d], fetch, policy, RaiseIfMissing)
        == Raised(NetworkError, CacheState(RingBuffer([b, c], 2), Store(true, {"images/B.jpeg", "images/C.jpeg"})))
  {
    var a, b, c, d := SamplePost("A", "a"), SamplePost("B", "b"), SamplePost("C", "c"), SamplePost("D", "d");
    WedgePosts();
    var afterC := Store(true, {"images/B.jpeg", "images/C.jpeg"});
    assert [a, b][1..] + [c] == [b, c];
    assert ({"images/A.jpeg", "images/B.jpeg"} + {"images/C.jpeg"}) - {"images/A.jpeg"} == afterC.files;
    var h1 := HandleNewPost(CacheState(RingBuffer([a, b], 2), Store(true, {"images/A.jpeg", "images/B.jpeg"})), c, fetch, policy, RaiseIfMissing);
    assert h1 == Completed(CacheState(RingBuffer([b, c], 2), afterC));
    assert [c, d][1..] == [d] && [d][1..] == [];
  }

  /** The feed pass of every later run: the stored `[A, B]` meets a directory without
      A's image, and evicting A again raises before anything changes for good. */
  lemma WedgeLaterPass(fetch: Json -> ImageFetch, policy: Membership)
    requires fetch(SamplePost("C", "c").imageUrl) == Fetched
    ensures var a, b, c, d := SamplePost("A", "a"), SamplePost("B", "b"), SamplePost("C", "c"), SamplePost("D", "d");
      ProcessFeed(CacheState(RingBuffer([a, b], 2), Store(true, {"images/B.jpeg", "images/C.jpeg"})), [c, d], fetch, policy, RaiseIfMissing)
        == Raised(FileNotFoundError, CacheState(RingBuffer([b, c], 2), Store(true, {"images/B.jpeg", "images/C.jpeg"})))
  {
    var a, b, c, d := SamplePost("A", "a"), SamplePost("B", "b"), SamplePost("C", "c"), SamplePost("D", "d");
    WedgePosts();
    assert [a, b][1..] + [c] == [b, c];
    assert {"images/B.jpeg", "images/C.jpeg"} + {"images/C.jpeg"} == {"images/B.jpeg", "images/C.jpeg"};
  }

  /** The same pass when a missing file counts as already deleted: it completes with C
      and D and exactly their two images. */
  lemma WedgeSkippingPass(fetch: Json -> ImageFetch, policy: Membership)
    requires fetch(SamplePost("C", "c").imageUrl) == Fetched && fetch(SamplePost("D", "d").imageUrl) == Fetched
    ensures var a, b, c, d := SamplePost("A", "a"), SamplePost("B", "b"), SamplePost("C", "c"), SamplePost("D", "d");
      ProcessFeed(CacheState(RingBuffer([a, b], 2), Store(true, {"images/B.jpeg", "images/C.jpeg"})), [c, d], fetch, policy, SkipIfMissing)
        == Completed(CacheState(RingBuffer([c, d], 2), Store(true, {"images/C.jpeg", "images/D.jpeg"})))
  {
    var a, b, c, d := SamplePost("A", "a"), SamplePost("B", "b"), SamplePost("C", "c"), SamplePost("D", "d");
    WedgePosts();
    var afterC := Store(true, {"images/B.jpeg", "images/C.jpeg"});
    assert [a, b][1..] + [c] == [b, c] && [b, c][1..] + [d] == [c, d];
    assert afterC.files + {"images/C.jpeg"} == afterC.files;
    var k1 := HandleNewPost(CacheState(RingBuffer([a, b], 2), afterC), c, fetch, policy, SkipIfMissing);
    assert k1 == Completed(CacheState(RingBuffer([b, c], 2), afterC));
    assert (afterC.files + {"images/D.jpeg"}) - {"images/B.jpeg"} == {"images/C.jpeg", "images/D.jpeg"};
    assert [c, d][1..] == [d] && [d][1..] == [];
  }

  /** A failed run wedges every later one. With `maxlen` 2 and a consistent start
      `[A, B]`, a run over the feed `[C, D]` pushes C, which evicts A and deletes its
      image, and then D's download fails. The state file still holds `[A, B]`. The next
      run loads `[A, B]` again, pushes C, evicts A again, and `os.remove` raises
      `FileNotFoundError`. It leaves the state file and directory exactly as it found
      them, so each later run with the same feed fails the same way. When a missing
      file counts as already deleted, that second run completes, and the next run
      starts consistent. Membership is the whole-record test of the code; for these
      four posts with distinct ids it agrees with the test by id. */
  lemma FailedRunWedgesLaterRuns()
    ensures var a, b, c, d := SamplePost("A", "a"), SamplePost("B", "b"), SamplePost("C", "c"), SamplePost("D", "d");
      var file := Present(RingBuffer([a, b], 2));
      var store := Store(true, {"images/A.jpeg", "images/B.jpeg"});
      var failD := (u: Json) => if u == d.imageUrl then RequestFailed else Fetched;
      var allFetched := (u: Json) => Fetched;
      var first := Run(file, store, FeedOf([c, d]), failD, WholeRecord, RaiseIfMissing);
      var second := Run(first.file, first.store, FeedOf([c, d]), allFetched, WholeRecord, RaiseIfMissing);
      var skipping := Run(first.file, first.store, FeedOf([c, d]), allFetched, WholeRecord, SkipIfMissing);
      && ConsistentStart(file, store)
      && first == RunResult(file, Store(true, {"images/B.jpeg", "images/C.jpeg"}), Some(NetworkError))
      && second == RunResult(first.file, first.store, Some(FileNotFoundError))
      && skipping == RunResult(Present(RingBuffer([c, d], 2)), Store(true, {"images/C.jpeg", "images/D.jpeg"}), None)
      && ConsistentStart(skipping.file, skipping.store)
  {
    var a, b, c, d := SamplePost("A", "a"), SamplePost("B", "b"), SamplePost("C", "c"), SamplePost("D", "d");
    var failD := (u: Json) => if u == d.imageUrl then RequestFailed else Fetched;
    var allFetched := (u: Json) => Fetched;
    var file := Present(RingBuffer([a, b], 2));
    var afterC := Store(true, {"images/B.jpeg", "images/C.jpeg"});
    WedgePosts();
    WedgeConsistentEnds();
    FetchFeedOf([c, d]);
    assert ReadOrCreateRingbuffer(file, BufferLength) == Ok(RingBuffer([a, b], 2));
    assert failD(c.imageUrl) == Fetched && failD(d.imageUrl) == RequestFailed;
    WedgeFirstPass(failD, WholeRecord);
    assert Run(file, Store(true, {"images/A.jpeg", "images/B.jpeg"}), FeedOf([c, d]), failD, WholeRecord, RaiseIfMissing)
      == RunResult(file, afterC, Some(NetworkError));
    WedgeLaterPass(allFetched, WholeRecord);
    assert Run(file, afterC, FeedOf([c, d]), allFetched, WholeRecord, RaiseIfMissing)
      == RunResult(file, afterC, Some(FileNotFoundError));
    WedgeSkippingPass(allFetched, WholeRecord);
  }

  /** The scenario starts and, when a missing file counts as deleted, ends consistent. */
  lemma WedgeConsistentEnds()
    ensures ConsistentStart(Present(RingBuffer([SamplePost("A", "a"), SamplePost("B", "b")], 2)), Store(true, {"images/A.jpeg", "images/B.jpeg"}))
    ensures ConsistentStart(Present(RingBuffer([SamplePost("C", "c"), SamplePost("D", "d")], 2)), Store(true, {"images/C.jpeg", "images/D.jpeg"}))
  {
    var a, b, c, d := SamplePost("A", "a"), SamplePost("B", "b"), SamplePost("C", "c"), SamplePost("D", "d");
    WedgePosts();
    assert Key(a) == "A" && Key(b) == "B" && Key(c) == "C" && Key(d) == "D";
    assert Filenames([a, b]) == {"images/A.jpeg", "images/B.jpeg"};
    assert Filenames([c, d]) == {"images/C.jpeg", "images/D.jpeg"};
  }
}

=== FILE: image_store.dfy ===
/** The `images` directory, seen only as the set of file names in it: `save_image`
    and `delete_image`. */
module ImageStore {
  import opened Outcomes
  import opened Posts

  /** Whether `images/` exists, and the image paths present in it. */
  datatype Store = Store(dirExists: bool, files: set<string>) {
    /** No file can be inside a directory that does not exist. */
    predicate Valid() {
      !dirExists ==> files == {}
    }
  }

  /** How the download of a post's image goes: completely, not at all (the request
      fails before the file is opened), or broken off after the file was opened. */
  datatype ImageFetch = Fetched | RequestFailed | StreamFailed

  /** `save_image`: create `images/` if needed, request the image, then open
      `post_filename(post)` for writing and stream the body into it. */
  function SaveImage(s: Store, p: Post, fetch: ImageFetch): (r: Outcome<Store>)
    ensures r.state.dirExists && r.state.Valid()
    ensures r.Completed? <==> fetch == Fetched
    ensures r.Raised? ==> r.error == NetworkError
    ensures r.state.files == if fetch == RequestFailed then s.files else s.files + {PostFilename(p)}
  {
    var withDir := Store(true, s.files);
    match fetch
    case RequestFailed => Raised(NetworkError, withDir)
    case StreamFailed => Raised(NetworkError, Store(true, withDir.files + {PostFilename(p)}))
    case Fetched => Completed(Store(true, withDir.files + {PostFilename(p)}))
  }

  /** What `delete_image` does when `images/` exists but the post's file does not.
      The code calls `os.remove`, which raises (`RaiseIfMissing`); `SkipIfMissing`
      treats the file as already deleted. */
  datatype Removal = RaiseIfMissing | SkipIfMissing

  /** `delete_image`: nothing to do without an `images/` directory; otherwise the
      post's file is removed, and a missing file is handled as `removal` says. */
  function DeleteImage(s: Store, p: Post, removal: Removal): (r: Outcome<Store>)
    requires s.Valid()
    ensures r.state.Valid() && r.state.dirExists == s.dirExists
    ensures r.state.files == s.files - {PostFilename(p)}
    ensures r.Raised? <==> removal == RaiseIfMissing && s.dirExists && PostFilename(p) !in s.files
    ensures r.Raised? ==> r.error == FileNotFoundError
  {
    if !s.dirExists then Completed(s)
    else if PostFilename(p) in s.files then Completed(Store(true, s.files - {PostFilename(p)}))
    else
      match removal
      case SkipIfMissing => Completed(s)
      case RaiseIfMissing => Raised(FileNotFoundError, s)
  }
}

=== FILE: json_values.dfy ===
/** Raw feed values as the JSON decoder hands them to Python, and the few Python
    operations the decoder applies to them: `v[key]`, `v[0]`, `v.get(key, default)`,
    `needle in v` and `str(v)`. */
module JsonValues {
  import opened Outcomes

  /** A decoded JSON value. `JScalar` is a number or a boolean, carried as the text
      Python's `str()` gives it; two scalars are equal when their texts are. */
  datatype Json =
    | JObject(fields: map<string, Json>)
    | JArray(elems: seq<Json>)
    | JString(str: string)
    | JNull
    | JScalar(text: string)

  /** `v[key]` with a string key: a dict lookup, a `TypeError` for any other value. */
  function Subscript(v: Json, key: string): (r: Result<Json>)
    ensures r.Ok? <==> v.JObject? && key in v.fields
    ensures r.Ok? ==> r.value == v.fields[key]
    ensures r.Err? ==> r.error == (if v.JObject? then KeyError else TypeError)
  {
    match v
    case JObject(m) => if key in m then Ok(m[key]) else Err(KeyError)
    case _ => Err(TypeError)
  }

  /** `v[0]`. A dict has only string keys, so `0` is a missing key; a string yields
      its first character. */
  function SubscriptFirst(v: Json): (r: Result<Json>)
    ensures r.Ok? <==> (v.JArray? && |v.elems| > 0) || (v.JString? && |v.str| > 0)
    ensures v.JArray? && |v.elems| > 0 ==> r == Ok(v.elems[0])
    ensures r.Err? ==> r.error in {KeyError, TypeError, IndexError}
  {
    match v
    case JArray(xs) => if |xs| > 0 then Ok(xs[0]) else Err(IndexError)
    case JString(s) => if |s| > 0 then Ok(JString([s[0]])) else Err(IndexError)
    case JObject(_) => Err(KeyError)
    case _ => Err(TypeError)
  }

  /** `v.get(key, default)`: only a dict has a `get` attribute. */
  function GetOr(v: Json, key: string, default: Json): (r: Result<Json>)
    ensures r.Ok? <==> v.JObject?
    ensures v.JObject? ==> r.value == (if key in v.fields then v.fields[key] else default)
    ensures r.Err? ==> r.error == AttributeError
  {
    match v
    case JObject(m) => Ok(if key in m then m[key] else default)
    case _ => Err(AttributeError)
  }

  predicate IsPrefix(prefix: string, s: string) {
    |prefix| <= |s| && s[..|prefix|] == prefix
  }

  /** `needle in hay` on two Python strings. */
  predicate IsSubstring(needle: string, hay: string)
    decreases |hay|
  {
    IsPrefix(needle, hay) || (|hay| > 0 && IsSubstring(needle, hay[1..]))
  }

  /** `needle in v` for a string `needle`: key membership in a dict, element
      membership in a list, substring in a string; `None`, numbers and booleans
      are not containers. */
  function In(needle: string, v: Json): (r: Result<bool>)
    ensures r.Err? <==> v.JNull? || v.JScalar?
    ensures r.Err? ==> r.error == TypeError
    ensures v.JObject? ==> r == Ok(needle in v.fields)
  {
    match v
    case JObject(m) => Ok(needle in m)
    case JArray(xs) => Ok(JString(needle) in xs)
    case JString(s) => Ok(IsSubstring(needle, s))
    case _ => Err(TypeError)
  }

  /** `str(v)` as an f-string renders it. Lists and dicts are rendered as fixed
      placeholders rather than as Python's `repr`. */
  function Str(v: Json): string {
    match v
    case JString(s) => s
    case JScalar(t) => t
    case JNull => "None"
    case JArray(_) => "[...]"
    case JObject(_) => "{...}"
  }
}

=== FILE: outcomes.dfy ===
/** Python's None-or-value, exceptions, and the outcome of a step with side effects. */
module Outcomes {

  /** A value or Python's `None`. */
  datatype Option<+T> = None | Some(value: T)

  /** The exceptions the modelled code raises or lets escape. */
  datatype PyError =
    | KeyError                // d[k] on a dict without k
    | TypeError               // subscript, `in` or iteration on a value that does not support it
    | IndexError              // [0] on an empty list, string or deque
    | AttributeError          // `.get` on a value that is not a dict
    | FileNotFoundError       // opening or removing a file that does not exist
    | NetworkError            // an HTTP request or a streamed download that fails
    | StatusError(status: int) // the bare `Exception` raised for a non-200 feed response
    | ContentError            // a feed response whose body is not JSON
    | LoadError               // any other failure while reading the pickled buffer

  /** A value, or the exception that was raised instead. */
  datatype Result<+T> = Ok(value: T) | Err(error: PyError) {
    predicate IsFailure() {
      Err?
    }

    function PropagateFailure<U>(): Result<U>
      requires Err?
    {
      Err(error)
    }

    function Extract(): T
      requires Ok?
    {
      value
    }
  }

  /** The state reached by a step with side effects: either the step ran to its end,
      or an exception escaped and `state` holds the effects made before it. */
  datatype Outcome<+S> = Completed(state: S) | Raised(error: PyError, state: S)
}

=== FILE: persistence.dfy ===
/** `read_ringbuffer` / `read_or_create_ringbuffer` and the pickle dump that ends a run
    of the fetch script. The pickle byte format is not modelled: a readable file is
    represented by the buffer it decodes to. */
module Persistence {
  import opened Outcomes
  import opened Posts
  import opened RingBuffers

  /** `ringbuffer.pickle` as the loader finds it. */
  datatype StateFile =
    | Absent                          // opening it raises FileNotFoundError
    | Present(buffer: RingBuffer<Post>) // it unpickles to this buffer, maxlen included
    | Unreadable(error: PyError)      // opening or unpickling raises this error

  /** `read_ringbuffer`. */
  function ReadRingbuffer(file: StateFile): (r: Result<RingBuffer<Post>>)
    ensures r.Ok? <==> file.Present?
    ensures r.Ok? ==> r.value == file.buffer
    ensures file.Absent? ==> r == Err(FileNotFoundError)
    ensures file.Unreadable? ==> r == Err(file.error)
  {
    match file
    case Absent => Err(FileNotFoundError)
    case Present(b) => Ok(b)
    case Unreadable(e) => Err(e)
  }

  /** `read_or_create_ringbuffer`: only `FileNotFoundError` is caught, and it yields an
      empty buffer of the requested length; a stored buffer keeps its own `maxlen`;
      every other error escapes. */
  function ReadOrCreateRingbuffer(file: StateFile, bufferLength: nat): (r: Result<RingBuffer<Post>>)
    ensures file.Absent? ==> r == Ok(RingBuffer([], bufferLength))
    ensures file.Present? ==> r == Ok(file.buffer)
    ensures r.Err? ==> file.Unreadable? && r.error == file.error && r.error != FileNotFoundError
    ensures r.Ok? && !file.Present? ==> r.value.items == [] && r.value.maxlen == bufferLength
    ensures file == Unreadable(FileNotFoundError) ==> r == Ok(RingBuffer([], bufferLength))
    ensures file.Unreadable? && file.error != FileNotFoundError ==> r == Err(file.error)
  {
    match ReadRingbuffer(file)
    case Err(FileNotFoundError) => Ok(RingBuffer([], bufferLength))
    case other => other
  }

  /** Writing `pickle.dumps(ringbuffer)` to the state file. */
  function Dump(b: RingBuffer<Post>): StateFile {
    Present(b)
  }

  /** What one run dumps, the next run loads, whatever length it asks for. */
  lemma DumpThenLoad(b: RingBuffer<Post>, bufferLength: nat)
    ensures ReadOrCreateRingbuffer(Dump(b), bufferLength) == Ok(b)
  {
  }
}

=== FILE: posts.dfy ===
/** A decoded feed post, its dict form, and the name of its cached image file. */
module Posts {
  import opened JsonValues

  /** The six-key dict `decode_feed_item` builds. Every value is copied unchanged
      from the raw item, so each field is a raw JSON value. */
  datatype Post = Post(
    username: Json,
    fullName: Json,
    id: Json,
    caption: Json,
    imageUrl: Json,
    takenAt: Json)

  /** The post as the Python dict with its six keys. */
  function ToDict(p: Post): (d: map<string, Json>)
    ensures d.Keys == {"username", "full name", "id", "caption", "image url", "taken at"}
  {
    map[
      "username" := p.username,
      "full name" := p.fullName,
      "id" := p.id,
      "caption" := p.caption,
      "image url" := p.imageUrl,
      "taken at" := p.takenAt]
  }

  /** The text the image file name is built from: the post's id as an f-string renders it. */
  function Key(p: Post): string {
    Str(p.id)
  }

  /** `images/<name>.jpeg`, the path of a cached image. */
  function ImagePath(name: string): string {
    "images/" + name + ".jpeg"
  }

  /** `post_filename`. */
  function PostFilename(p: Post): string {
    ImagePath(Key(p))
  }

  /** The id can be read back from a post's file name, between `images/` and `.jpeg`,
      and a string id appears there verbatim. */
  lemma PostFilenameParts(p: Post)
    ensures var r := PostFilename(p);
      && |r| == |Key(p)| + 12
      && r[..7] == "images/" && r[|r| - 5..] == ".jpeg" && r[7..|r| - 5] == Key(p)
      && (p.id.JString? ==> r == "images/" + p.id.str + ".jpeg")
  {
  }

  /** Distinct names give distinct paths, so a cached file belongs to exactly one key. */
  lemma {:induction false} ImagePathInjective(a: string, b: string)
    ensures ImagePath(a) == ImagePath(b) <==> a == b
  {
    if ImagePath(a) == ImagePath(b) {
      var pa, pb := ImagePath(a), ImagePath(b);
      assert |a| == |pa| - 12 == |pb| - 12 == |b|;
      forall i | 0 <= i < |a|
        ensures a[i] == b[i]
      {
        assert a[i] == pa[7 + i];
        assert b[i] == pb[7 + i];
      }
    }
  }

  /** Two posts share an image file exactly when their ids render to the same text. */
  lemma PostFilenameSharedIffSameKey(p: Post, q: Post)
    ensures PostFilename(p) == PostFilename(q) <==> Key(p) == Key(q)
  {
    ImagePathInjective(Key(p), Key(q));
  }
}

=== FILE: ring_buffers.dfy ===
/** `RingBuffer`: a deque with `maxlen` whose `push` reports the element that the
    append pushes out. */
module RingBuffers {
  import opened Outcomes

  /** The deque's contents, oldest first, and its `maxlen`. */
  datatype RingBuffer<T> = RingBuffer(items: seq<T>, maxlen: nat) {
    /** A bounded deque never holds more than `maxlen` elements. */
    predicate Valid() {
      |items| <= maxlen
    }

    predicate Full() {
      |items| == maxlen
    }
  }

  /** What `push` returns together with the buffer it leaves behind. */
  datatype Pushed<T> = Pushed(buffer: RingBuffer<T>, evicted: Option<T>)

  /** The evicted elements an optional eviction contributes, as a sequence. */
  function Evictions<T>(o: Option<T>): seq<T> {
    match o
    case None => []
    case Some(x) => [x]
  }

  /** `deque.append` on a deque with `maxlen`: when full, the leftmost element drops
      out (and with `maxlen == 0` nothing is ever stored). */
  function Append<T>(b: RingBuffer<T>, x: T): (r: RingBuffer<T>)
    requires b.Valid()
    ensures r.Valid() && r.maxlen == b.maxlen
  {
    if |b.items| == b.maxlen then
      if b.maxlen == 0 then b else RingBuffer(b.items[1..] + [x], b.maxlen)
    else
      RingBuffer(b.items + [x], b.maxlen)
  }

  /** `RingBuffer.push`. Reading `self[0]` of an empty deque whose `maxlen` is 0
      raises `IndexError` before anything is appended. Nothing is lost: the evicted
      element followed by the new contents is the old contents followed by `x`. */
  function Push<T>(b: RingBuffer<T>, x: T): (r: Result<Pushed<T>>)
    requires b.Valid()
    ensures r.Err? <==> b.maxlen == 0
    ensures r.Err? ==> r.error == IndexError
    ensures r.Ok? ==> r.value.buffer.Valid() && r.value.buffer.maxlen == b.maxlen
    ensures r.Ok? ==> (r.value.evicted.Some? <==> b.Full())
    ensures r.Ok? ==> Evictions(r.value.evicted) + r.value.buffer.items == b.items + [x]
  {
    if |b.items| == b.maxlen then
      if |b.items| == 0 then Err(IndexError)
      else Ok(Pushed(Append(b, x), Some(b.items[0])))
    else
      Ok(Pushed(Append(b, x), None))
  }

  /** Below capacity nothing is evicted and `x` is appended. */
  lemma PushBelowCapacity<T>(b: RingBuffer<T>, x: T)
    requires b.Valid() && |b.items| < b.maxlen
    ensures Push(b, x) == Ok(Pushed(RingBuffer(b.items + [x], b.maxlen), None))
  {
    var r := Push(b, x);
    assert r.value.buffer.items == b.items + [x];
  }

  /** At capacity the oldest element is evicted and the rest shift left (FIFO). */
  lemma PushAtCapacity<T>(b: RingBuffer<T>, x: T)
    requires b.Valid() && b.Full() && b.maxlen > 0
    ensures Push(b, x) == Ok(Pushed(RingBuffer(b.items[1..] + [x], b.maxlen), Some(b.items[0])))
  {
    var r := Push(b, x);
    var ev := Evictions(r.value.evicted);
    assert ev == [r.value.evicted.value];
    assert (ev + r.value.buffer.items)[0] == b.items[0];
    assert r.value.buffer.items == (ev + r.value.buffer.items)[1..] == b.items[1..] + [x];
  }

  /** The two cases together: for any `maxlen > 0`, what `push` evicts and keeps. */
  lemma PushFifo<T>(b: RingBuffer<T>, x: T)
    requires b.Valid() && b.maxlen > 0
    ensures Push(b, x) == Ok(
      if b.Full()
      then Pushed(RingBuffer(b.items[1..] + [x], b.maxlen), Some(b.items[0]))
      else Pushed(RingBuffer(b.items + [x], b.maxlen), None))
  {
    if b.Full() {
      PushAtCapacity(b, x);
    } else {
      PushBelowCapacity(b, x);
    }
  }

  /** `push` does not deduplicate: an element already present gains one more copy,
      and every element is counted once in the buffer or among the evictions. */
  lemma PushKeepsDuplicates<T>(b: RingBuffer<T>, x: T)
    requires b.Valid() && b.maxlen > 0
    ensures Push(b, x).Ok?
    ensures var p := Push(b, x).value;
      multiset(Evictions(p.evicted)) + multiset(p.buffer.items) == multiset(b.items) + multiset{x}
    ensures x in b.items && !b.Full() ==>
      multiset(Push(b, x).value.buffer.items)[x] == multiset(b.items)[x] + 1
  {
    var p := Push(b, x).value;
    calc {
      multiset(Evictions(p.evicted)) + multiset(p.buffer.items);
      multiset(Evictions(p.evicted) + p.buffer.items);
      multiset(b.items + [x]);
      multiset(b.items) + multiset{x};
    }
  }

  function Min(a: int, b: int): int {
    if a <= b then a else b
  }

  /** A run of pushes, returning the final buffer and every evicted element in order. */
  function PushAll<T>(b: RingBuffer<T>, xs: seq<T>): (r: Result<(RingBuffer<T>, seq<T>)>)
    requires b.Valid()
    decreases |xs|
    ensures r.Err? <==> b.maxlen == 0 && |xs| > 0
    ensures r.Ok? ==> r.value.0.Valid() && r.value.0.maxlen == b.maxlen
    ensures r.Ok? ==> r.value.1 + r.value.0.items == b.items + xs
    ensures r.Ok? ==> |r.value.0.items| == Min(b.maxlen, |b.items| + |xs|)
  {
    if |xs| == 0 then
      Ok((b, []))
    else
      match Push(b, xs[0])
      case Err(e) => Err(e)
      case Ok(p) =>
        match PushAll(p.buffer, xs[1..])
        case Err(e) => Err(e)
        case Ok(rest) =>
          PushAllStep(b.items, xs, Evictions(p.evicted), p.buffer.items, rest.1, rest.0.items);
          Ok((rest.0, Evictions(p.evicted) + rest.1))
  }

  /** The bookkeeping of one step of `PushAll`: the evictions of the first push and of
      the remaining pushes, followed by the final contents, cover everything pushed. */
  lemma PushAllStep<T>(old0: seq<T>, xs: seq<T>, ev0: seq<T>, mid: seq<T>, ev1: seq<T>, final: seq<T>)
    requires |xs| > 0
    requires ev0 + mid == old0 + [xs[0]]
    requires ev1 + final == mid + xs[1..]
    ensures (ev0 + ev1) + final == old0 + xs
  {
    calc {
      (ev0 + ev1) + final;
      ev0 + (ev1 + final);
      ev0 + (mid + xs[1..]);
      (ev0 + mid) + xs[1..];
      (old0 + [xs[0]]) + xs[1..];
      old0 + ([xs[0]] + xs[1..]);
      { assert [xs[0]] + xs[1..] == xs; }
      old0 + xs;
    }
  }

  /** Over any run of pushes on a buffer with `maxlen > 0`: the length never exceeds
      `maxlen`, the buffer ends with the last element pushed, and it holds exactly the
      newest `maxlen` elements seen, the older ones having been evicted oldest first. */
  lemma {:induction false} PushAllKeepsNewestWindow<T>(b: RingBuffer<T>, xs: seq<T>)
    requires b.Valid() && b.maxlen > 0
    ensures PushAll(b, xs).Ok?
    ensures var (nb, ev) := PushAll(b, xs).value;
      var all := b.items + xs;
      && |nb.items| <= nb.maxlen == b.maxlen
      && |ev| == |all| - |nb.items|
      && ev == all[..|ev|] && nb.items == all[|ev|..]
      && (|xs| > 0 ==> nb.items[|nb.items| - 1] == xs[|xs| - 1])
  {
    var (nb, ev) := PushAll(b, xs).value;
    var all := b.items + xs;
    assert ev + nb.items == all;
    assert ev == all[..|ev|];
    assert nb.items == all[|ev|..];
    if |xs| > 0 {
      assert |nb.items| > 0;
      assert nb.items[|nb.items| - 1] == all[|all| - 1];
    }
  }
}

=== FILE: server.dfy ===
/** The server variant: its worker loop, and the read-side handlers `get_image` and
    `get_feed`. */
module Server {
  import opened Outcomes
  import opened JsonValues
  import opened Posts
  import opened Dicts
  import opened RingBuffers
  import opened ImageStore
  import opened FeedDecoding
  import opened Cache

  /** `BUFFER_LENGTH`. */
  const BufferLength: nat := 25

  /** `FIELDS_TO_DROP`. */
  const FieldsToDrop: seq<string> := ["image url"]

  /** The worker's starting state: a fresh `RingBuffer(maxlen=BUFFER_LENGTH)` next to
      whatever the image directory already holds. */
  function InitialState(store: Store): (s: CacheState)
    requires store.Valid()
    ensures s.Valid() && s.buffer.items == [] && s.buffer.maxlen == 25
    ensures store.files == {} ==> Consistent(s)
  {
    CacheState(RingBuffer([], BufferLength), store)
  }

  /** One pass of `wait_for_new_posts`: fetch and decode the feed, then handle each post
      in feed order. A failing fetch raises before anything changes. */
  function RefreshCycle(s: CacheState, response: FeedResponse, fetch: Json -> ImageFetch, policy: Membership, removal: Removal): (r: Outcome<CacheState>)
    requires s.Valid()
    ensures r.state.Valid() && r.state.buffer.maxlen == s.buffer.maxlen
    ensures FetchNewsFeed(response).Err? ==> r == Raised(FetchNewsFeed(response).error, s)
    ensures response.Received? && response.status != 200 ==> r == Raised(StatusError(response.status), s)
  {
    match FetchNewsFeed(response)
    case Err(e) => Raised(e, s)
    case Ok(posts) => ProcessFeed(s, posts, fetch, policy, removal)
  }

  /** The worker thread over a run of feed responses (the sleeps between them carry no
      state). Nothing catches an exception, so the first one ends the worker and the
      server keeps serving the buffer as it was left. */
  function RunWorker(s: CacheState, responses: seq<FeedResponse>, fetch: Json -> ImageFetch, policy: Membership, removal: Removal): (r: Outcome<CacheState>)
    requires s.Valid()
    decreases |responses|
    ensures r.state.Valid() && r.state.buffer.maxlen == s.buffer.maxlen
    ensures |responses| > 0 && FetchNewsFeed(responses[0]).Err? ==> r == Raised(FetchNewsFeed(responses[0]).error, s)
  {
    if |responses| == 0 then
      Completed(s)
    else
      match RefreshCycle(s, responses[0], fetch, policy, removal)
      case Raised(e, t) => Raised(e, t)
      case Completed(t) => RunWorker(t, responses[1..], fetch, policy, removal)
  }

  /** Once a cycle raises, the worker is over: responses after it are never fetched
      and change nothing, so there is no retry on a later tick. */
  lemma {:induction false} RaisedWorkerIgnoresLaterResponses(s: CacheState, responses: seq<FeedResponse>, more: seq<FeedResponse>, fetch: Json -> ImageFetch, policy: Membership, removal: Removal)
    requires s.Valid()
    decreases |responses|
    ensures RunWorker(s, responses, fetch, policy, removal).Raised? ==>
      RunWorker(s, responses + more, fetch, policy, removal) == RunWorker(s, responses, fetch, policy, removal)
  {
    if |responses| > 0 {
      assert (responses + more)[0] == responses[0];
      assert (responses + more)[1..] == responses[1..] + more;
      match RefreshCycle(s, responses[0], fetch, policy, removal)
      case Raised(_, _) =>
      case Completed(t) =>
        RaisedWorkerIgnoresLaterResponses(t, responses[1..], more, fetch, policy, removal);
    }
  }

  /** Under id-keyed membership the worker keeps the cache consistent across cycles. */
  lemma {:induction false} WorkerByKeyKeepsConsistency(s: CacheState, responses: seq<FeedResponse>, fetch: Json -> ImageFetch, removal: Removal)
    requires Consistent(s)
    decreases |responses|
    ensures var r := RunWorker(s, responses, fetch, SameKey, removal);
      r.Completed? ==> Consistent(r.state)
  {
    if |responses| > 0 {
      var c := RefreshCycle(s, responses[0], fetch, SameKey, removal);
      if FetchNewsFeed(responses[0]).Ok? {
        ProcessByKeyKeepsConsistency(s, FetchNewsFeed(responses[0]).value, fetch, removal);
      }
      if c.Completed? {
        WorkerByKeyKeepsConsistency(c.state, responses[1..], fetch, removal);
      }
    }
  }

  /** The index of the first post with the given id, as the `for`/`break` finds it. */
  function FirstWithId(items: seq<Post>, id: Json): (r: Option<nat>)
    decreases |items|
    ensures r.Some? ==> r.value < |items| && items[r.value].id == id
    ensures r.Some? ==> forall j :: 0 <= j < r.value ==> items[j].id != id
    ensures r.None? <==> forall j :: 0 <= j < |items| ==> items[j].id != id
  {
    if |items| == 0 then None
    else if items[0].id == id then Some(0)
    else
      match FirstWithId(items[1..], id)
      case None => None
      case Some(i) => Some(i + 1)
  }

  /** What a handler sends: a status and either text or the bytes of a file. */
  datatype Body = Text(text: string) | FileContents(path: string)
  datatype Response = Response(status: int, body: Body)

  /** `get_image`: the id is looked up in the buffer (compared with the string from the
      URL), not in the directory; only a buffered id leads to opening the file, which
      raises when the file is missing. */
  function GetImage(items: seq<Post>, store: Store, imageId: string): (r: Result<Response>)
    requires store.Valid()
    ensures (r.Ok? && r.value.status == 404) <==> forall i :: 0 <= i < |items| ==> items[i].id != JString(imageId)
    ensures r.Ok? && r.value.status == 404 ==> r.value.body == Text("Image <" + imageId + "> does not exist")
    ensures r.Ok? && r.value.status != 404 ==>
      r.value == Response(200, FileContents(ImagePath(imageId))) && ImagePath(imageId) in store.files
    ensures r.Err? ==> r.error == FileNotFoundError && ImagePath(imageId) !in store.files
  {
    match FirstWithId(items, JString(imageId))
    case None => Ok(Response(404, Text("Image <" + imageId + "> does not exist")))
    case Some(_) =>
      var path := ImagePath(imageId);
      if store.dirExists && path in store.files then Ok(Response(200, FileContents(path)))
      else Err(FileNotFoundError)
  }

  /** In a consistent cache every buffered post's image can be served. */
  lemma GetImageServesEveryCachedPost(s: CacheState, imageId: string)
    requires Consistent(s)
    requires exists i :: 0 <= i < |s.buffer.items| && s.buffer.items[i].id == JString(imageId)
    ensures GetImage(s.buffer.items, s.store, imageId) == Ok(Response(200, FileContents(ImagePath(imageId))))
  {
    var i :| 0 <= i < |s.buffer.items| && s.buffer.items[i].id == JString(imageId);
    var p := s.buffer.items[i];
    assert Key(p) == imageId;
    assert PostFilename(p) in Filenames(s.buffer.items);
  }

  /** `get_feed`: every buffered post, oldest first, without its `image url`. */
  function GetFeed(items: seq<Post>): (r: seq<map<string, Json>>)
    ensures |r| == |items|
    ensures forall i :: 0 <= i < |items| ==>
      r[i].Keys == {"username", "full name", "id", "caption", "taken at"}
    ensures forall i :: 0 <= i < |items| ==>
      forall k :: k in r[i] ==> r[i][k] == ToDict(items[i])[k]
  {
    seq(|items|, i requires 0 <= i < |items| => DictWithout(ToDict(items[i]), FieldsToDrop))
  }

  /** Two buffers give the same feed exactly when their posts agree, in order, on
      everything but the image url. */
  lemma GetFeedForgetsOnlyImageUrl(a: seq<Post>, b: seq<Post>)
    ensures GetFeed(a) == GetFeed(b) <==>
      |a| == |b| && forall i :: 0 <= i < |a| ==> a[i].(imageUrl := b[i].imageUrl) == b[i]
  {
    var fa, fb := GetFeed(a), GetFeed(b);
    if fa == fb {
      forall i | 0 <= i < |a|
        ensures a[i].(imageUrl := b[i].imageUrl) == b[i]
      {
        assert fa[i]["username"] == fb[i]["username"];
        assert fa[i]["full name"] == fb[i]["full name"];
        assert fa[i]["id"] == fb[i]["id"];
        assert fa[i]["caption"] == fb[i]["caption"];
        assert fa[i]["taken at"] == fb[i]["taken at"];
      }
    }
    if |a| == |b| && forall i :: 0 <= i < |a| ==> a[i].(imageUrl := b[i].imageUrl) == b[i] {
      forall i | 0 <= i < |a|
        ensures fa[i] == fb[i]
      {
        assert fa[i].Keys == fb[i].Keys;
        assert a[i].(imageUrl := b[i].imageUrl) == b[i];
        assert fa[i]["username"] == fb[i]["username"];
        assert fa[i]["full name"] == fb[i]["full name"];
        assert fa[i]["id"] == fb[i]["id"];
        assert fa[i]["caption"] == fb[i]["caption"];
        assert fa[i]["taken at"] == fb[i]["taken at"];
      }
    }
  }
}
